=== FILE: README.md ===
# An Intel 8080 interpreter core, modelled in Dafny

The program is an Intel 8080 emulator written in C++ for Space Invaders
ROMs. Its core is `Emulate8080Operation`. Each call fetches the opcode at
`pc`, moves `pc` past it and runs that opcode's `case` of a 256-way
`switch`. The `case` updates the registers, flags, stack pointer,
program counter and 64 KiB memory of a `State8080` record in place.
Opcodes without a case reach `NotImplementedInstruction`, which ends the
process. The parity flag comes from the helper `Parity`. The disassembler
`Disassemble8080Opcodes` gives each opcode its length, `opbytes`. The
class `Emulator8080` (emulator8080.h) wraps the same machinery around a
state it owns.

The model has eight modules, one file each:

- `Bits` (bits.dfy): the C integer types as subset types of `int`.
  - `uint8_t` is `byte`, `uint16_t` is `u16`, a one-bit flag field is `bit`.
  - Every truncating store is written out with `Wrap8` or `Wrap16`.
- `ParityFlag` (parity.dfy): the `Parity` loop, as a method. It is proved
  against a counting function `Ones` and its parity `ParityOf`.
- `Decode` (decode.dfy): the `opbytes` table, checked against the length
  rules of the 8080 encoding.
- `Cpu` (cpu.dfy): the architectural state as a value, and the step as a
  function `Step`.
  - `Step` is the specification of `Emulate8080Operation`.
  - Its cases are split into sixteen instruction groups. Each group
    follows the source cases one for one, quirks included.
  - `Run` is the driver loop taken for `n` iterations.
- `Machine` (machine.dfy): the interpreter as the source runs it.
  - `State8080` is a class whose memory is an `array`.
  - `Emulate8080Operation` updates it in place. It is proved to leave
    exactly the state that `Cpu.Step` gives.
  - There is one method per implemented opcode, each proved against its
    group function. Group dispatch methods stand between the step and
    them.
- `Emulator` (emulator.dfy): the `Emulator8080` class of emulator8080.h.
- `CpuProps` (cpuprops.dfy): what each instruction group does.
  - Each group is stated against the regular 8080 encoding: a register by
    a three-bit field, a pair by a two-bit field.
  - `pc` ends as many bytes on as `opbytes` says.
  - Instructions that undo each other do so: PUSH/POP, CALL/RET, XCHG
    twice, CMA twice, STA/LDA.
- `Findings` (findings.dfy): two places where the code departs from the
  8080, each shown as written and then corrected.

Memory accesses outside the 64 KiB buffer are undefined behaviour in the
source. They are preconditions of the step (`Cpu.InBuffer`):
- an operand past address 0xFFFF;
- a push with `sp < 2`;
- a pop with `sp = 0xFFFF`.

The driver loop stops before such a step with the outcome `OutOfBuffer`.

## Model

| member | source | states |
|---|---|---|
| Bits.Wrap8 | main.cpp:377 | storing an `int` into a `uint8_t` keeps it when it fits, and otherwise differs from it by a multiple of 256 |
| Bits.Wrap16 | main.cpp:365 | the same for `uint16_t`, as in `pc += 1` and `sp += 2` |
| Bits.Word | main.cpp:392 | `(hi << 8) \| lo` has high byte `hi` and low byte `lo` |
| Bits.HighByte | main.cpp:786-787 | splitting a word into `(w >> 8) & 0xff` and `w & 0xff` and joining the halves gives the word back |
| Bits.BitOf | main.cpp:378 | a C comparison stored into a one-bit flag is 1 exactly when the comparison holds |
| Bits.AndSelf | main.cpp:703 | `a & a` is `a` |
| Bits.AndBits | main.cpp:703 | `x & y` on the low `n` bits, taken bit by bit, fits in `n` bits |
| Bits.XorBits | main.cpp:718 | `x ^ y` on the low `n` bits, taken bit by bit, fits in `n` bits |
| Bits.AndBitsSelf | main.cpp:703 | `a & a` keeps every bit of `a` in the window: it is `a` modulo `2^n` |
| Bits.XorBitsSelf | main.cpp:718 | `a ^ a` has no bit set in any window |
| Bits.XorSelf | main.cpp:718 | `a ^ a` is 0 |
| Bits.Not8 | main.cpp:496 | `~a` stored back into A is `0xFF - a` |
| ParityFlag.Parity | main.cpp:44-55 | returns 0 or 1, and 1 exactly when the low `size` bits of `x` hold an even number of ones |
| ParityFlag.OnesLowBits | main.cpp:48 | masking `x` with `(1 << size) - 1` does not change the number of ones the loop counts |
| ParityFlag.ParityLowBits | main.cpp:48-54 | two values that agree on their low `size` bits have the same parity |
| ParityFlag.ParityOfZero | main.cpp:54 | `Parity(0, size)` is 1 |
| ParityFlag.ParityOfPow2 | main.cpp:49-54 | `Parity(1 << k, size)` is 0 for every `k < size` |
| Decode.OpBytes | main.cpp:57-338 | `opbytes` is 1, 2 or 3 for each of the 256 opcodes, and equals the length the 8080 encoding rules give (`EncodedLength`) |
| Cpu.SignBit | main.cpp:379 | `(x & 0x80) != 0` on a byte holds exactly when `x >= 0x80` |
| Cpu.MaskBit | main.cpp:868-872 | `psw & (1 << k)` is either 0 or `2^k` |
| Cpu.SetZSP | main.cpp:377-380 | z is set exactly when the result is 0, s exactly when its bit 7 is set, and p is its parity; carry and auxiliary carry are untouched |
| Cpu.Decrement | main.cpp:376-383 | DCR (also lines 403-410) counts down by one, from 0 round to 0xFF; z is set exactly when the value was 1, s and p describe the result; carry and auxiliary carry are untouched |
| Cpu.AddToHL | main.cpp:391-399 | DAD: the new HL plus 0x10000 times the carry equals HL plus the pair; only H, L and cy change |
| Cpu.AddToA | main.cpp:638-669 | ADD: the new A plus 0x100 times the carry equals A plus the operand; z is set exactly when the new A is 0 and s exactly when it is 0x80 or above; p and ac keep their old values (the parity update is commented out); only A and the flags change |
| Cpu.PackPsw | main.cpp:880-890 | the PSW byte of PUSH PSW holds z, s, p, cy and ac in bits 0 to 4 and nothing above |
| Cpu.UnpackPsw | main.cpp:866-876 | POP PSW reads z, s, p and ac back from bits 0, 1, 2 and 4, and always clears cy |
| Cpu.Execute | main.cpp:366-912 | faults exactly on the opcodes that have no case of their own, and then leaves the state as it was; every other opcode runs |
| Cpu.ExecuteLoadPairImmediate | main.cpp:368-372 | LXI (also 423-428, 461-465, 499-502) changes only a register pair or `sp`, and moves `pc` over the two operand bytes; the effect itself is `CpuProps.LoadPairImmediateSpec` |
| Cpu.ExecuteMoveImmediate | main.cpp:384-388 | MVI (also 411-415, 475-479, 512-517, 530-534) keeps the flags and `sp` and moves `pc` over the operand; only MVI M writes memory; the effect itself is `CpuProps.MoveImmediateSpec` |
| Cpu.ExecuteMoveRegister | main.cpp:537-545 | MOV between registers (also 601-604, 619-630) changes only A, B or L; the effect itself is `CpuProps.MoveRegisterSpec` |
| Cpu.ExecuteMoveMemory | main.cpp:564-568 | MOV to and from M (also 576-592, 612-616, 632-636) keeps the flags, `sp` and `pc`; only MOV M,A writes memory; the effect itself is `CpuProps.MoveMemorySpec` |
| Cpu.ExecuteLoadStore | main.cpp:503-526 | LDAX D (450-454), STA, LDA and XCHG (852-860) keep the flags and `sp`, move `pc` over their operand bytes, and only STA writes memory; the effect itself is `CpuProps.LoadStoreSpec` |
| Cpu.ExecuteDecrementIncrement | main.cpp:376-383 | DCR B, DCR C (403-410), INX D and INX H (430-435, 467-472) change only registers B to L and the flags, and INX leaves the flags alone; the effect itself is `CpuProps.DecrementRegisterSpec` and `CpuProps.IncrementPairSpec` |
| Cpu.ExecuteDoubleAdd | main.cpp:391-399 | DAD (also 441-449, 482-489) changes only H, L and cy; the effect itself is `CpuProps.DoubleAddSpec` |
| Cpu.ExecuteAddRegister | main.cpp:638-669 | ADD B, C, M change only A and the flags, keeping p and ac; the effect itself is `CpuProps.AddRegisterSpec` |
| Cpu.ExecuteAddImmediate | main.cpp:764-773 | ADI changes only A and the flags, keeps ac, and moves `pc` over the operand; the effect itself is `CpuProps.AddImmediateSpec` |
| Cpu.ExecuteLogical | main.cpp:416-421 | RRC, CMA (495-497), ANA A (702-709) and XRA A (717-724) change only A and the flags; the effect itself is `CpuProps.RotateRightSpec`, `CpuProps.ComplementSpec` and `CpuProps.LogicalFlags` |
| Cpu.ExecuteLogicalImmediate | main.cpp:839-847 | ANI and CPI (902-910) change only A and the flags and move `pc` over the operand; CPI keeps A; the effect itself is `CpuProps.LogicalFlags` and `CpuProps.CompareImmediateSpec` |
| Cpu.ExecutePush | main.cpp:758-763 | PUSH (also 807-812, 833-838, 880-890) writes no byte but the two below `sp`, changes no register, and lowers `sp` by two; what it writes is `CpuProps.PushSpec` |
| Cpu.ExecutePop | main.cpp:742-747 | POP (also 795-800, 824-829, 866-876) leaves memory and `pc` alone and raises `sp` by two modulo 2^16; the effect itself is `CpuProps.PopSpec` for B, D and H and `CpuProps.PopPswSpec` for PSW |
| Cpu.ExecuteJump | main.cpp:748-756 | JNZ and JMP change only `pc`; where it goes is `CpuProps.JumpSpec` |
| Cpu.ExecuteCallReturn | main.cpp:776-791 | CALL and RET change only memory, `sp` and `pc`; RET leaves memory alone and raises `sp` by two; CALL writes no byte but the two below `sp` and lowers `sp` by two; the round trip is `CpuProps.CallThenReturn` |
| Cpu.ExecuteControl | main.cpp:802-805 | NOP (367), OUT and EI (896-899) change only `pc` and the interrupt enable; the effect itself is `CpuProps.ControlSpec` |
| Cpu.Step | main.cpp:362-366 | after the fetch and `pc += 1`, the step faults exactly when the opcode is not implemented, and then only `pc` has changed; otherwise it runs |
| Cpu.Run | main.cpp:959-966 | zero iterations leave the state as it was; a run that stops early stops either just past an unimplemented opcode, or at a state whose next step would access memory outside the buffer |
| Machine.State8080.constructor | main.cpp:932-936 | a fresh record with every register and flag zero and a fresh 64 KiB buffer |
| Machine.LoadFileIntoMemoryAt | main.cpp:917-930 | the bytes land at `offset`; every byte before and after them is unchanged |
| Machine.SetZSP | main.cpp:377-381 | the z, s, p update through the `Parity` loop gives the flags `Cpu.SetZSP` describes, and no register changes |
| Machine.Emulate8080Operation | main.cpp:362-915 | the in-place step leaves the record and buffer in exactly the state `Cpu.Step` gives, with the same outcome |
| Machine.Run | main.cpp:959-966 | the driver loop, taken for `n` iterations, ends in the outcome and state `Cpu.Run` gives |
| Machine.RunIteration | main.cpp:965 | one iteration moves the remaining run from `k` steps to `k - 1`, or ends it |
| Machine.ExecuteLoadPairImmediate | main.cpp:368-372 | the LXI cases (also 423-428, 461-465, 499-502), dispatched in place: leave exactly the state `Cpu.ExecuteLoadPairImmediate` gives |
| Machine.ExecuteMoveImmediate | main.cpp:384-388 | the MVI cases (also 411-415, 475-479, 512-517, 530-534), in place: leave exactly the state `Cpu.ExecuteMoveImmediate` gives |
| Machine.ExecuteMoveRegister | main.cpp:537-545 | the register MOV cases (also 601-604, 619-630), in place: leave exactly the state `Cpu.ExecuteMoveRegister` gives |
| Machine.ExecuteMoveMemory | main.cpp:564-568 | the MOV cases through M (also 576-592, 612-616, 632-636), in place: leave exactly the state `Cpu.ExecuteMoveMemory` gives |
| Machine.ExecuteLoadStore | main.cpp:503-526 | LDAX D (450-454), STA, LDA and XCHG (852-860), in place: leave exactly the state `Cpu.ExecuteLoadStore` gives |
| Machine.ExecuteDecrementIncrement | main.cpp:376-383 | DCR B, DCR C (403-410), INX D and INX H (430-435, 467-472), in place: leave exactly the state `Cpu.ExecuteDecrementIncrement` gives |
| Machine.ExecuteDoubleAdd | main.cpp:391-399 | the DAD cases (also 441-449, 482-489), in place: leave exactly the state `Cpu.ExecuteDoubleAdd` gives |
| Machine.ExecuteAddRegister | main.cpp:638-669 | ADD B, C, M, in place: leave exactly the state `Cpu.ExecuteAddRegister` gives |
| Machine.ExecuteLogical | main.cpp:416-421 | RRC, CMA (495-497), ANA A (702-709) and XRA A (717-724), in place: leave exactly the state `Cpu.ExecuteLogical` gives |
| Machine.ExecuteLogicalImmediate | main.cpp:839-847 | ANI and CPI (902-910), in place: leave exactly the state `Cpu.ExecuteLogicalImmediate` gives |
| Machine.ExecutePush | main.cpp:758-763 | the PUSH cases (also 807-812, 833-838, 880-890), in place: leave exactly the state `Cpu.ExecutePush` gives |
| Machine.ExecutePop | main.cpp:742-747 | the POP cases (also 795-800, 824-829, 866-876), in place: leave exactly the state `Cpu.ExecutePop` gives |
| Machine.ExecuteJump | main.cpp:748-756 | JNZ and JMP, in place: leave exactly the state `Cpu.ExecuteJump` gives |
| Machine.ExecuteCallReturn | main.cpp:776-791 | CALL and RET, in place: leave exactly the state `Cpu.ExecuteCallReturn` gives |
| Machine.ExecuteControl | main.cpp:802-805 | NOP (367), OUT and EI (896-899), in place: leave exactly the state `Cpu.ExecuteControl` gives |
| Machine.LxiB | main.cpp:368-372 | LXI B,word (opcode 0x01), in place: leaves exactly the state `Cpu.ExecuteLoadPairImmediate` gives |
| Machine.LxiD | main.cpp:423-428 | LXI D,word (opcode 0x11), in place: leaves exactly the state `Cpu.ExecuteLoadPairImmediate` gives |
| Machine.LxiH | main.cpp:461-465 | LXI H,word (opcode 0x21), in place: leaves exactly the state `Cpu.ExecuteLoadPairImmediate` gives |
| Machine.LxiSp | main.cpp:499-502 | LXI SP,word (opcode 0x31), in place: leaves exactly the state `Cpu.ExecuteLoadPairImmediate` gives |
| Machine.MviB | main.cpp:384-388 | MVI B,byte (opcode 0x06), in place: leaves exactly the state `Cpu.ExecuteMoveImmediate` gives |
| Machine.MviC | main.cpp:411-415 | MVI C,byte (opcode 0x0E), in place: leaves exactly the state `Cpu.ExecuteMoveImmediate` gives |
| Machine.MviH | main.cpp:475-479 | MVI H,byte (opcode 0x26), in place: leaves exactly the state `Cpu.ExecuteMoveImmediate` gives |
| Machine.MviM | main.cpp:512-517 | MVI M,byte (opcode 0x36), in place: leaves exactly the state `Cpu.ExecuteMoveImmediate` gives |
| Machine.MviA | main.cpp:530-534 | MVI A,byte (opcode 0x3E), in place: leaves exactly the state `Cpu.ExecuteMoveImmediate` gives |
| Machine.MovBC | main.cpp:537-539 | MOV B,C (opcode 0x41), in place: leaves exactly the state `Cpu.ExecuteMoveRegister` gives |
| Machine.MovBD | main.cpp:540-542 | MOV B,D (opcode 0x42), in place: leaves exactly the state `Cpu.ExecuteMoveRegister` gives |
| Machine.MovBE | main.cpp:543-545 | MOV B,E (opcode 0x43), in place: leaves exactly the state `Cpu.ExecuteMoveRegister` gives |
| Machine.MovLA | main.cpp:601-604 | MOV L,A (opcode 0x6F), in place: leaves exactly the state `Cpu.ExecuteMoveRegister` gives |
| Machine.MovAD | main.cpp:619-622 | MOV A,D (opcode 0x7A), in place: leaves exactly the state `Cpu.ExecuteMoveRegister` gives |
| Machine.MovAE | main.cpp:623-626 | MOV A,E (opcode 0x7B), in place: leaves exactly the state `Cpu.ExecuteMoveRegister` gives |
| Machine.MovAH | main.cpp:627-630 | MOV A,H (opcode 0x7C), in place: leaves exactly the state `Cpu.ExecuteMoveRegister` gives |
| Machine.MovDM | main.cpp:564-568 | MOV D,M (opcode 0x56), in place: leaves exactly the state `Cpu.ExecuteMoveMemory` gives |
| Machine.MovEM | main.cpp:576-580 | MOV E,M (opcode 0x5E), in place: leaves exactly the state `Cpu.ExecuteMoveMemory` gives |
| Machine.MovHM | main.cpp:588-592 | MOV H,M (opcode 0x66), in place: leaves exactly the state `Cpu.ExecuteMoveMemory` gives |
| Machine.MovMA | main.cpp:612-616 | MOV M,A (opcode 0x77), in place: leaves exactly the state `Cpu.ExecuteMoveMemory` gives |
| Machine.MovAM | main.cpp:632-636 | MOV A,M (opcode 0x7E), in place: leaves exactly the state `Cpu.ExecuteMoveMemory` gives |
| Machine.LdaxD | main.cpp:450-454 | LDAX D (opcode 0x1A), in place: leaves exactly the state `Cpu.ExecuteLoadStore` gives |
| Machine.Sta | main.cpp:503-508 | STA adr (opcode 0x32), in place: leaves exactly the state `Cpu.ExecuteLoadStore` gives |
| Machine.Lda | main.cpp:521-526 | LDA adr (opcode 0x3A), in place: leaves exactly the state `Cpu.ExecuteLoadStore` gives |
| Machine.Xchg | main.cpp:852-860 | XCHG (opcode 0xEB), in place: leaves exactly the state `Cpu.ExecuteLoadStore` gives |
| Machine.DcrB | main.cpp:376-383 | DCR B (opcode 0x05), in place: leaves exactly the state `Cpu.ExecuteDecrementIncrement` gives |
| Machine.DcrC | main.cpp:403-410 | DCR C (opcode 0x0D), in place: leaves exactly the state `Cpu.ExecuteDecrementIncrement` gives |
| Machine.InxD | main.cpp:430-435 | INX D (opcode 0x13), in place: leaves exactly the state `Cpu.ExecuteDecrementIncrement` gives |
| Machine.InxH | main.cpp:467-472 | INX H (opcode 0x23), in place: leaves exactly the state `Cpu.ExecuteDecrementIncrement` gives |
| Machine.DadB | main.cpp:391-399 | DAD B (opcode 0x09), in place: leaves exactly the state `Cpu.ExecuteDoubleAdd` gives |
| Machine.DadD | main.cpp:441-449 | DAD D (opcode 0x19), in place: leaves exactly the state `Cpu.ExecuteDoubleAdd` gives |
| Machine.DadH | main.cpp:482-489 | DAD H (opcode 0x29), in place: leaves exactly the state `Cpu.ExecuteDoubleAdd` gives |
| Machine.AddB | main.cpp:638-646 | ADD B (opcode 0x80), in place: leaves exactly the state `Cpu.ExecuteAddRegister` gives |
| Machine.AddC | main.cpp:647-655 | ADD C (opcode 0x81), in place: leaves exactly the state `Cpu.ExecuteAddRegister` gives |
| Machine.AddM | main.cpp:660-669 | ADD M (opcode 0x86), in place: leaves exactly the state `Cpu.ExecuteAddRegister` gives |
| Machine.Adi | main.cpp:764-773 | ADI byte (opcode 0xC6), in place: leaves exactly the state `Cpu.ExecuteAddImmediate` gives |
| Machine.Rrc | main.cpp:416-421 | RRC (opcode 0x0F), in place: leaves exactly the state `Cpu.ExecuteLogical` gives |
| Machine.Cma | main.cpp:495-497 | CMA (opcode 0x2F), in place: leaves exactly the state `Cpu.ExecuteLogical` gives |
| Machine.AnaA | main.cpp:702-709 | ANA A (opcode 0xA7), in place: leaves exactly the state `Cpu.ExecuteLogical` gives |
| Machine.XraA | main.cpp:717-724 | XRA A (opcode 0xAF), in place: leaves exactly the state `Cpu.ExecuteLogical` gives |
| Machine.Ani | main.cpp:839-847 | ANI byte (opcode 0xE6), in place: leaves exactly the state `Cpu.ExecuteLogicalImmediate` gives |
| Machine.Cpi | main.cpp:902-910 | CPI byte (opcode 0xFE), in place: leaves exactly the state `Cpu.ExecuteLogicalImmediate` gives |
| Machine.PushB | main.cpp:758-763 | PUSH B (opcode 0xC5), in place: leaves exactly the state `Cpu.ExecutePush` gives |
| Machine.PushD | main.cpp:807-812 | PUSH D (opcode 0xD5), in place: leaves exactly the state `Cpu.ExecutePush` gives |
| Machine.PushH | main.cpp:833-838 | PUSH H (opcode 0xE5), in place: leaves exactly the state `Cpu.ExecutePush` gives |
| Machine.PushPsw | main.cpp:880-890 | PUSH PSW (opcode 0xF5), in place: leaves exactly the state `Cpu.ExecutePush` gives |
| Machine.PopB | main.cpp:742-747 | POP B (opcode 0xC1), in place: leaves exactly the state `Cpu.ExecutePop` gives |
| Machine.PopD | main.cpp:795-800 | POP D (opcode 0xD1), in place: leaves exactly the state `Cpu.ExecutePop` gives |
| Machine.PopH | main.cpp:824-829 | POP H (opcode 0xE1), in place: leaves exactly the state `Cpu.ExecutePop` gives |
| Machine.PopPsw | main.cpp:866-876 | POP PSW (opcode 0xF1), in place: leaves exactly the state `Cpu.ExecutePop` gives |
| Machine.Jnz | main.cpp:748-753 | JNZ adr (opcode 0xC2), in place: leaves exactly the state `Cpu.ExecuteJump` gives |
| Machine.Jmp | main.cpp:754-756 | JMP adr (opcode 0xC3), in place: leaves exactly the state `Cpu.ExecuteJump` gives |
| Machine.Call | main.cpp:784-791 | CALL adr (opcode 0xCD), in place: leaves exactly the state `Cpu.ExecuteCallReturn` gives |
| Machine.Ret | main.cpp:776-780 | RET (opcode 0xC9), in place: leaves exactly the state `Cpu.ExecuteCallReturn` gives |
| Machine.Nop | main.cpp:367 | NOP (opcode 0x00), in place: leaves exactly the state `Cpu.ExecuteControl` gives |
| Machine.Out | main.cpp:802-805 | OUT byte (opcode 0xD3), in place: leaves exactly the state `Cpu.ExecuteControl` gives |
| Machine.Ei | main.cpp:896-899 | EI (opcode 0xFB), in place: leaves exactly the state `Cpu.ExecuteControl` gives |
| Machine.AddToHL | main.cpp:391-399 | the shared DAD update, in place: leaves exactly the state `Cpu.AddToHL` gives |
| Machine.JumpTo | main.cpp:789 | the jump that ends CALL, in place: only `pc` changes, to the target |
| Machine.Push | main.cpp:786-788 | the stack write of CALL and PUSH, in place: leaves exactly the state `Cpu.PushBytes` gives, `hi` at `sp - 1` and `lo` at `sp - 2` with `sp` lowered by two |
| Emulator.Emulator8080.constructor | emulator8080.h:36 | the class starts with no processor state |
| Emulator.Emulator8080.Parity | emulator8080.h:53-64 | the class's own copy of `Parity` returns 0 or 1, and the same bit as the free `Parity` on every input |
| Emulator.Emulator8080.InitializeProcessorState | emulator8080.h:65-68 | the class owns a fresh, zeroed record with a fresh 64 KiB buffer |
| Emulator.Emulator8080.Initialize | emulator8080.h:95-101 | every register, flag, `sp`, `pc` and the interrupt enable start at zero; the four ROM images are loaded at 0, 0x800, 0x1000 and 0x1800 in that order, each later load writing over what an earlier one put past its 2 KiB slot, so the last image is always intact and each other image is intact when it fits its own 2 KiB slot |
| Emulator.Emulator8080.AdvanceEmulationStep | emulator8080.h:102-104 | one step of the owned state, exactly as `Cpu.Step` gives it |
| CpuProps.LoadPairImmediateSpec | main.cpp:368-372 | LXI B, D, H, SP (also lines 423-428, 461-465, 499-502): the pair named by bits 5-4 takes the little-endian operand, and `pc` ends `opbytes` = 3 bytes on |
| CpuProps.MoveImmediateSpec | main.cpp:384-388 | MVI B, C, H, M, A (also lines 411-415, 475-479, 512-517, 530-534): the register named by bits 5-3 takes the operand byte, and `pc` ends `opbytes` = 2 bytes on |
| CpuProps.MoveRegisterSpec | main.cpp:537-545 | MOV between registers (also lines 601-604, 619-630): register `ddd` takes register `sss`, and nothing else changes |
| CpuProps.MoveMemorySpec | main.cpp:564-568 | MOV to and from M (also lines 576-592, 612-616, 632-636): the same rule, with register 6 being the byte at HL |
| CpuProps.LoadStoreSpec | main.cpp:503-508 | STA, and also LDAX D (450-454), LDA (521-526) and XCHG (852-860): each loads, stores or swaps as its encoding says, and `pc` ends `opbytes` bytes on |
| CpuProps.ExchangeTwice | main.cpp:852-860 | XCHG twice leaves every register as it was |
| CpuProps.StoreThenLoad | main.cpp:503-526 | STA then LDA at the same address gives A back; the store changes that one byte only |
| CpuProps.DecrementRegisterSpec | main.cpp:403-410 | DCR B and DCR C apply that decrement to the register named by bits 5-3, and nothing else but the flags changes |
| CpuProps.IncrementPairSpec | main.cpp:430-435 | INX D and INX H (also lines 467-472): the pair counts up by one modulo 2^16; no flag changes |
| CpuProps.DoubleAddSpec | main.cpp:391-399 | DAD B, D, H (also lines 441-449, 482-489): the new HL plus 0x10000 times the carry equals HL plus the pair. Only H, L and cy change |
| CpuProps.AddRegisterSpec | main.cpp:638-669 | ADD B, C, M: A plus 0x100 times the carry equals A plus the source register. z and s describe the new A; p and ac keep their old values |
| CpuProps.AddImmediateSpec | main.cpp:764-773 | ADI: the same 9-bit sum with the operand byte. p describes the new A, and `pc` ends `opbytes` = 2 bytes on |
| CpuProps.RotateRightSpec | main.cpp:416-421 | RRC: rotating the new A back left gives the old A; cy is the bit that went round; only A and cy change |
| CpuProps.ComplementSpec | main.cpp:495-497 | CMA: the new A plus the old A is 0xFF; no flag changes; CMA twice gives A back |
| CpuProps.LogicalFlags | main.cpp:702-724 | ANA A leaves A as it was, XRA A clears it and ANI (839-847) leaves `A & byte`; in all three cy and ac are cleared and z, s and p describe the new A; ANI ends `opbytes` = 2 bytes on |
| CpuProps.ExclusiveOrSelf | main.cpp:717-724 | XRA A clears A, sets z and p, and clears s, cy and ac |
| CpuProps.CompareImmediateSpec | main.cpp:902-910 | CPI leaves A alone. z is set exactly when A equals the operand, cy exactly when A is below it; s is bit 7 of the difference `A - byte` truncated to a byte and p its parity; `pc` ends `opbytes` = 2 bytes on |
| CpuProps.PushSpec | main.cpp:758-763 | PUSH B, D, H, PSW (also lines 807-812, 833-838, 880-890): the word goes below `sp`, high byte on top, and `sp` drops by two. No other byte or register changes |
| CpuProps.PopSpec | main.cpp:742-747 | POP B, D, H (also lines 795-800, 824-829): the pair takes the word at `sp`, and `sp` rises by two |
| CpuProps.PopPswSpec | main.cpp:866-876 | POP PSW, as written: A takes the byte above `sp`; z, s, p and ac take bits 0, 1, 2 and 4 of the byte at `sp`; cy is always cleared; `sp` rises by two modulo 2^16 and nothing else changes |
| CpuProps.PushThenPop | main.cpp:742-763 | PUSH B, D or H followed by the matching POP gives back the pair and `sp`; only the two stack bytes differ |
| CpuProps.JumpSpec | main.cpp:748-756 | JNZ goes to the operand exactly when z is clear, and otherwise `opbytes` = 3 bytes on; JMP always goes. Nothing else changes |
| CpuProps.CallThenReturn | main.cpp:776-791 | CALL saves the address 3 bytes on below `sp` and writes no other byte; a RET right after comes back there with `sp` restored |
| CpuProps.CallKeepsMemory | main.cpp:784-791 | CALL writes the two bytes below `sp` and leaves every other byte of memory as it was |
| CpuProps.CallTarget | main.cpp:784-791 | when CALL's stack frame does not overlap its own operand, CALL jumps to the operand as fetched |
| CpuProps.ControlSpec | main.cpp:802-805 | OUT skips its port byte; NOP (367) changes nothing; EI (896-899) only sets the interrupt enable; `pc` ends `opbytes` bytes on |
| Findings.PushPopPswAsWritten | main.cpp:866-890 | as written, PUSH PSW then POP PSW gives back A, `sp` and every flag except cy, which comes back clear |
| Findings.PushPopPswLosesCarry | main.cpp:866-890 | as written, PUSH PSW then POP PSW turns a set carry into a clear one, so the flags differ from those pushed |
| Findings.UnpackPackPsw | main.cpp:866-890 | with the carry read from bit 3, unpacking the byte PUSH PSW packs gives every flag back |
| Findings.PushPopPswFixed | main.cpp:866-890 | corrected, PUSH PSW then POP PSW gives back A, every flag and `sp` |
| Findings.AddLeavesParityStale | main.cpp:638-646 | as written, ADD B with A = B = 0 and p clear gives A = 0, whose parity is even, yet p stays clear |
| Findings.AddWithParitySum | main.cpp:643 | with the parity update restored, ADD keeps the 9-bit sum in A and the carry, and p describes the new A |
| Findings.AdiIsAddWithParity | main.cpp:764-773 | ADI is exactly the corrected ADD applied to the operand byte, followed by the skip over that byte |
| Findings.AddWithParityMatchesAdi | main.cpp:643 | with the commented-out parity update restored, ADD computes A and all four flags exactly as ADI does, and p describes the new A |

## Left out

- The SDL window, its event loop and the rendering (`InitialiseWindow`, window.cpp, window.h). The driver loop is modelled as `Run` for a given number of iterations.
- File input in `LoadFileIntoMemoryAt`.
  - The ROM file's bytes are a parameter.
  - The failed-`fopen` exit and the size taken by `fseek`/`ftell` are not modelled.
  - The source does not check that the file fits the buffer; the copy's fit is a precondition.
- The hard-coded ROM names of `Initialize` and `InitialiseState`. The four images are parameters. `InitialiseState` (main.cpp:974-981) does the same loads as `Emulator8080::Initialize` and is modelled once, by `Emulator.Emulator8080.Initialize`.
- The text `Disassemble8080Opcodes` prints for each opcode, and `DumpProcessorState`, which only prints. Only the lengths (`opbytes`) are modelled.
- `NotImplementedInstruction`'s message and `exit(1)`. They become the outcome `Faulted(opcode, address)`, and the driver loop stops there.
- The duplicate declarations of `Flags` and `State8080` in emulator8080.h are modelled once, by `Cpu.Flags`, `Cpu.State` and `Machine.State8080`.
  - The class's `LoadFileIntoMemoryAt`, `NotImplementedInstruction` and `DumpProcessorState` are the same code as the free functions and are modelled once.
  - emulator8080.h only declares `Disassemble8080Opcodes` and `Emulate8080Operation`. The model takes the definitions of main.cpp.
- The contents of the buffer `malloc` returns: the constructor leaves them unspecified.
- The three padding bits of `Flags`.
- Memory accesses outside the 64 KiB buffer, which are undefined behaviour in the source:
  - an operand past 0xFFFF;
  - a push with `sp < 2`;
  - a pop with `sp = 0xFFFF`.

  They are preconditions of the step and its cases. `Run` stops before such a step with `OutOfBuffer`.
- `Emulator.Emulator8080.AdvanceEmulationStep`: the source dereferences `state` without a check. The model requires `Initialize` or `InitializeProcessorState` to have run.
- `Emulator.Emulator8080.constructor`: the source leaves the `state` pointer uninitialised; the model starts it as null.
- There are no devices and no interrupt delivery in the source.
  - OUT only skips its port byte.
  - EI only sets `int_enable`.
- The `switch` is split into sixteen instruction groups and one method per opcode. Each piece is proved separately; the behaviour is unchanged.
- Cpu.ExecuteLoadPairImmediate: its own contract states the frame (which fields it may change), as do the fifteen group functions below; what it computes is `CpuProps.LoadPairImmediateSpec`.
- Cpu.ExecuteMoveImmediate: its own contract states the frame; what it computes is `CpuProps.MoveImmediateSpec`.
- Cpu.ExecuteMoveRegister: its own contract states the frame; what it computes is `CpuProps.MoveRegisterSpec`.
- Cpu.ExecuteMoveMemory: its own contract states the frame; what it computes is `CpuProps.MoveMemorySpec`.
- Cpu.ExecuteLoadStore: its own contract states the frame and the `pc` step; what it computes is `CpuProps.LoadStoreSpec`.
- Cpu.ExecuteDecrementIncrement: its own contract states the frame; what it computes is `CpuProps.DecrementRegisterSpec` and `CpuProps.IncrementPairSpec`.
- Cpu.ExecuteDoubleAdd: its own contract states the frame; what it computes is `CpuProps.DoubleAddSpec`.
- Cpu.ExecuteAddRegister: its own contract states the frame; what it computes is `CpuProps.AddRegisterSpec`.
- Cpu.ExecuteAddImmediate: its own contract states the frame; what it computes is `CpuProps.AddImmediateSpec`.
- Cpu.ExecuteLogical: its own contract states the frame; what it computes is `CpuProps.RotateRightSpec`, `CpuProps.ComplementSpec` and `CpuProps.LogicalFlags`.
- Cpu.ExecuteLogicalImmediate: its own contract states the frame; what it computes is `CpuProps.LogicalFlags` and `CpuProps.CompareImmediateSpec`.
- Cpu.ExecutePush: its own contract states the frame; what it computes is `CpuProps.PushSpec`.
- Cpu.ExecutePop: its own contract states the frame; what it computes is `CpuProps.PopSpec` and `CpuProps.PopPswSpec`.
- Cpu.ExecuteJump: its own contract states the frame; where it goes is `CpuProps.JumpSpec`.
- Cpu.ExecuteCallReturn: its own contract states the frame; what it computes is `CpuProps.CallThenReturn`, `CpuProps.CallKeepsMemory` and `CpuProps.CallTarget`.
- Cpu.ExecuteControl: its own contract states the frame; what it computes is `CpuProps.ControlSpec`.

## Findings

| source | as written | input that shows it | evidently intended | confidence | as-written member | corrected member |
|---|---|---|---|---|---|---|
| main.cpp:872 | POP PSW sets `cy = (0x05 == (psw & 0x08))`, which can never hold, so carry is always cleared | any state with cy = 1 running PUSH PSW then POP PSW: cy comes back 0 | `cy = (0x08 == (psw & 0x08))`, so that POP PSW undoes PUSH PSW | high (not executed) | Findings.PushPopPswLosesCarry | Findings.PushPopPswFixed |
| main.cpp:643 | ADD B, ADD C and ADD M have the parity update commented out, so p keeps its old value | A = 0, B = 0, p = 0, then ADD B: A = 0 (even parity) but p stays 0 | `p = Parity(answer & 0xff, 8)`, as ADI does | high (not executed) | Findings.AddLeavesParityStale | Findings.AddWithParityMatchesAdi |

The step in `Cpu` and `Machine` keeps both behaviours as written: `Cpu.UnpackPsw` and `CpuProps.PopPswSpec` state that POP PSW always clears cy, and `Cpu.AddToA` that ADD keeps the old p. The corrected definitions (`Findings.UnpackPswFixed`, `Findings.PopPswFixed`, `Findings.AddToAWithParity`) sit beside them, with their intended properties proved.

=== FILE: bits.dfy ===
/** Fixed-width integer helpers for the 8080 model.
    C's unsigned types are modelled as subset types of `int`; every
    truncating store into a `uint8_t` or `uint16_t` is written out with
    `Wrap8` / `Wrap16` (Euclidean `%`, which is C's conversion to unsigned). */
module Bits {

  type byte = x: int | 0 <= x < 0x100
  type u16 = x: int | 0 <= x < 0x1_0000
  /** A one-bit bit-field such as `uint8_t z:1`. */
  type bit = x: int | 0 <= x < 2

  /** Storing an `int` into a `uint8_t`. */
  function Wrap8(x: int): (r: byte)
    ensures 0 <= x < 0x100 ==> r == x
    ensures (r - x) % 0x100 == 0
  {
    x % 0x100
  }

  /** Storing an `int` into a `uint16_t`. */
  function Wrap16(x: int): (r: u16)
    ensures 0 <= x < 0x1_0000 ==> r == x
    ensures (r - x) % 0x1_0000 == 0
  {
    x % 0x1_0000
  }

  /** `(hi << 8) | lo`: a register pair, or a little-endian operand `opcode[2]:opcode[1]`. */
  function Word(hi: byte, lo: byte): (w: u16)
    ensures w / 0x100 == hi && w % 0x100 == lo
  {
    hi * 0x100 + lo
  }

  /** `(w >> 8) & 0xff` */
  function HighByte(w: u16): (r: byte)
    ensures Word(r, LowByte(w)) == w
  {
    w / 0x100
  }

  /** `w & 0xff` */
  function LowByte(w: u16): byte
  {
    w % 0x100
  }

  /** A C comparison stored into a one-bit flag. */
  function BitOf(b: bool): (r: bit)
    ensures r == 1 <==> b
  {
    if b then 1 else 0
  }

  function Pow2(n: nat): (r: nat)
    ensures r >= 1
  {
    if n == 0 then 1 else 2 * Pow2(n - 1)
  }

  /** Bit `k` of `x` (two's complement for negative `x`). */
  function BitAt(x: int, k: nat): (r: bit)
  {
    (x / Pow2(k)) % 2
  }

  lemma DivModUnique(x: int, d: int, q: int, r: int)
    requires d > 0 && 0 <= r < d && x == q * d + r
    ensures x / d == q && x % d == r
  {
    var q', r' := x / d, x % d;
    assert q' * d + r' == q * d + r;
    if q' < q {
      MulAtLeast(q - q', d);
    } else if q' > q {
      MulAtLeast(q' - q, d);
    }
  }

  /** A sum below 0x20000 is its two low bytes plus a carry of 0x10000. */
  lemma SplitSum17(res: nat)
    requires res < 0x2_0000
    ensures Word((res / 0x100) % 0x100, res % 0x100) + 0x1_0000 * BitOf(res > 0xFFFF) == res
  {
    var q := res / 0x100;
    if res > 0xFFFF {
      DivModUnique(q, 0x100, 1, q - 0x100);
    } else {
      DivModUnique(q, 0x100, 0, q);
    }
  }

  /** Bit `k` of `low + 2^k * (b + 2 * high)` is `b` when `low` fits below bit `k`. */
  lemma BitAtSplit(x: int, k: nat, low: int, b: bit, high: int)
    requires 0 <= low < Pow2(k) && x == (b + 2 * high) * Pow2(k) + low
    ensures BitAt(x, k) == b
  {
    DivModUnique(x, Pow2(k), b + 2 * high, low);
    DivModUnique(b + 2 * high, 2, high, b);
  }

  lemma MulAtLeast(k: int, d: int)
    requires k >= 1 && d > 0
    ensures k * d >= d
  {
  }

  /** Dropping bit 0 commutes with keeping the low bits: `x % 2m` is bit 0 of
      `x` above `(x / 2) % m`. */
  lemma MaskShift(x: int, m: int)
    requires m >= 1
    ensures (x % (2 * m)) % 2 == x % 2
    ensures (x % (2 * m)) / 2 == (x / 2) % m
  {
    var q, r := x / (2 * m), x % (2 * m);
    assert x == (q * m) * 2 + r;
    var h, b := r / 2, r % 2;
    assert r == h * 2 + b;
    DivModUnique(x, 2, q * m + h, b);
    assert x / 2 == q * m + h;
    assert h < m;
    DivModUnique(x / 2, m, q, h);
  }

  /** `x & y` on the low `n` bits, bit 0 first. */
  function AndBits(x: int, y: int, n: nat): (r: nat)
    ensures r < Pow2(n)
    decreases n
  {
    if n == 0 then 0
    else (if x % 2 == 1 && y % 2 == 1 then 1 else 0) + 2 * AndBits(x / 2, y / 2, n - 1)
  }

  /** `x ^ y` on the low `n` bits, bit 0 first. */
  function XorBits(x: int, y: int, n: nat): (r: nat)
    ensures r < Pow2(n)
    decreases n
  {
    if n == 0 then 0
    else (if x % 2 != y % 2 then 1 else 0) + 2 * XorBits(x / 2, y / 2, n - 1)
  }

  /** `x & y` on two bytes. */
  function And8(x: byte, y: byte): byte
  {
    assert Pow2(8) == 0x100;
    AndBits(x, y, 8)
  }

  /** `x ^ y` on two bytes. */
  function Xor8(x: byte, y: byte): byte
  {
    assert Pow2(8) == 0x100;
    XorBits(x, y, 8)
  }

  /** Every bit of `x & x` is the bit of `x`. */
  lemma {:induction false} AndBitsSelf(x: int, n: nat)
    ensures AndBits(x, x, n) == x % Pow2(n)
    decreases n
  {
    if n > 0 {
      AndBitsSelf(x / 2, n - 1);
      MaskShift(x, Pow2(n - 1));
    }
  }

  /** No bit of `x ^ x` is set. */
  lemma {:induction false} XorBitsSelf(x: int, n: nat)
    ensures XorBits(x, x, n) == 0
    decreases n
  {
    if n > 0 {
      XorBitsSelf(x / 2, n - 1);
    }
  }

  /** `x & x == x`. */
  lemma AndSelf(x: byte)
    ensures And8(x, x) == x
  {
    assert Pow2(8) == 0x100;
    AndBitsSelf(x, 8);
    DivModUnique(x, 0x100, 0, x);
  }

  /** `x ^ x == 0`. */
  lemma XorSelf(x: byte)
    ensures Xor8(x, x) == 0
  {
    XorBitsSelf(x, 8);
  }

  /** `~x` stored back into a `uint8_t`: `~x` is `-x - 1` on the promoted `int`. */
  function Not8(x: byte): (r: byte)
    ensures r == 0xFF - x
  {
    Wrap8(-(x as int) - 1)
  }
}

=== FILE: cpu.dfy ===
/** The architectural state of the 8080 as a value, and one
    fetch-decode-execute step of the interpreter as a function on it. This is
    the specification that the imperative step in module Machine is proved to
    implement; the properties of the instructions are proved about it in
    module CpuProps.

    Each case follows the corresponding `case` of the interpreter's `switch`,
    quirks included:
    - ADD B, ADD C and ADD M leave the parity flag untouched (the update is
      commented out in the source); ADI does update it.
    - POP PSW tests the carry bit with `0x05 == (psw & 0x08)`, which is never
      true, so it always clears carry.
    - CALL reads its target operand after it has pushed the return address,
      so a stack frame that overlaps the operand bytes changes the target.
    - DCR, ANA, XRA, ANI and CPI never touch the auxiliary-carry flag except
      where the source clears it (ANA A, XRA A, ANI). */
module Cpu {
  import opened Bits
  import opened ParityFlag
  import opened Decode

  /** The 64 KiB buffer behind `state->memory`. */
  type Memory = m: seq<byte> | |m| == 0x1_0000 witness seq(0x1_0000, i => 0)

  /** The five one-bit condition flags (the three padding bits are never read). */
  datatype Flags = Flags(z: bit, s: bit, p: bit, cy: bit, ac: bit)

  datatype State = State(
    a: byte, b: byte, c: byte, d: byte, e: byte, h: byte, l: byte,
    sp: u16, pc: u16,
    mem: Memory,
    flags: Flags,
    intEnable: byte)

  /** The result of one step. `Faulted` stands for `NotImplementedInstruction`,
      which in the source prints a message and ends the process.
      `OutOfBuffer` is where a run stops before a step whose memory accesses
      would fall outside the 64 KiB buffer (undefined behaviour in the source). */
  datatype Outcome = Running | Faulted(opcode: byte, address: u16) | OutOfBuffer

  function BC(st: State): u16 { Word(st.b, st.c) }
  function DE(st: State): u16 { Word(st.d, st.e) }
  function HL(st: State): u16 { Word(st.h, st.l) }

  /** Opcodes with a `case` of their own in the interpreter; every other
      opcode reaches `NotImplementedInstruction`. */
  predicate Implemented(op: byte)
  {
    op in {
      0x00, 0x01, 0x05, 0x06, 0x09, 0x0d, 0x0e, 0x0f,
      0x11, 0x13, 0x19, 0x1a,
      0x21, 0x23, 0x26, 0x29, 0x2f,
      0x31, 0x32, 0x36, 0x3a, 0x3e,
      0x41, 0x42, 0x43, 0x56, 0x5e, 0x66, 0x6f,
      0x77, 0x7a, 0x7b, 0x7c, 0x7e,
      0x80, 0x81, 0x86, 0xa7, 0xaf,
      0xc1, 0xc2, 0xc3, 0xc5, 0xc6, 0xc9, 0xcd,
      0xd1, 0xd3, 0xd5,
      0xe1, 0xe5, 0xe6, 0xeb,
      0xf1, 0xf5, 0xfb, 0xfe
    }
  }

  /** The implemented opcodes in groups that follow the instruction groups
      of the Intel 8080 manual (chapter 4); each group has its own function
      below. */
  predicate LoadPairImmediate(op: byte) { op in {0x01, 0x11, 0x21, 0x31} }
  predicate MoveImmediate(op: byte) { op in {0x06, 0x0e, 0x26, 0x36, 0x3e} }
  predicate MoveRegister(op: byte) { op in {0x41, 0x42, 0x43, 0x6f, 0x7a, 0x7b, 0x7c} }
  predicate MoveMemory(op: byte) { op in {0x56, 0x5e, 0x66, 0x77, 0x7e} }
  predicate LoadStore(op: byte) { op in {0x1a, 0x32, 0x3a, 0xeb} }
  predicate DecrementIncrement(op: byte) { op in {0x05, 0x0d, 0x13, 0x23} }
  predicate DoubleAdd(op: byte) { op in {0x09, 0x19, 0x29} }
  predicate AddRegister(op: byte) { op in {0x80, 0x81, 0x86} }
  predicate AddImmediate(op: byte) { op in {0xc6} }
  predicate Logical(op: byte) { op in {0x0f, 0x2f, 0xa7, 0xaf} }
  predicate LogicalImmediate(op: byte) { op in {0xe6, 0xfe} }
  predicate PushOp(op: byte) { op in {0xc5, 0xd5, 0xe5, 0xf5} }
  predicate PopOp(op: byte) { op in {0xc1, 0xd1, 0xe1, 0xf1} }
  predicate Jump(op: byte) { op in {0xc2, 0xc3} }
  predicate CallReturn(op: byte) { op in {0xcd, 0xc9} }
  predicate Control(op: byte) { op in {0x00, 0xd3, 0xfb} }

  /** Implemented opcodes that write at `sp - 1` and `sp - 2` (PUSH B, D, H, PSW; CALL). */
  predicate Pushes(op: byte) { op in {0xc5, 0xd5, 0xe5, 0xf5, 0xcd} }
  /** Implemented opcodes that read at `sp` and `sp + 1` (POP B, D, H, PSW; RET). */
  predicate Pops(op: byte) { op in {0xc1, 0xd1, 0xe1, 0xf1, 0xc9} }

  /** Every byte the step touches lies inside the 64 KiB buffer. The source
      indexes the buffer with `int` arithmetic and does not wrap: the operand
      bytes (which the trace line also reads, for every opcode) sit at
      `pc + 1` and `pc + 2`, a push writes at `sp - 1` and `sp - 2`, and a pop
      reads at `sp + 1`. Outside these bounds the source reads or writes
      outside its buffer. */
  predicate InBuffer(st: State)
  {
    var op := st.mem[st.pc];
    && st.pc + OpBytes(op) <= 0x1_0000
    && (Pushes(op) ==> st.sp >= 2)
    && (Pops(op) ==> st.sp <= 0xFFFE)
  }

  /** Bit 7 of a result, the sign flag (`(x & 0x80) != 0`). */
  function SignBit(x: int): (r: bit)
    ensures 0 <= x < 0x100 ==> (r == 1 <==> x >= 0x80)
  {
    (x / 0x80) % 2
  }

  /** A sum below 0x200 is its low byte plus a carry of 0x100, and its
      bit 7 is that of the low byte. */
  lemma SplitSum9(sum: int)
    requires 0 <= sum < 0x200
    ensures sum % 0x100 + 0x100 * BitOf(sum > 0xFF) == sum
    ensures SignBit(sum) == SignBit(sum % 0x100)
  {
  }

  /** `x & (1 << k)`: bit `k` of `x` kept in place. */
  function MaskBit(x: byte, k: nat): (r: int)
    ensures r == 0 || r == Pow2(k)
  {
    BitAt(x, k) * Pow2(k)
  }

  /** z, s and p recomputed from an 8-bit result; cy and ac untouched. */
  function SetZSP(f: Flags, res: byte): (g: Flags)
    ensures g.cy == f.cy && g.ac == f.ac
    ensures g.z == 1 <==> res == 0
    ensures g.s == 1 <==> res >= 0x80
    ensures g.p == ParityOf(res, 8)
  {
    f.(z := BitOf(res == 0), s := SignBit(res), p := ParityOf(res, 8))
  }

  /** DCR r: r - 1 stored into a `uint8_t`, then z, s, p. The register
      counts down by one, from 0 round to 0xFF; z is set exactly when it
      was 1; carry and auxiliary carry are not touched. */
  function Decrement(f: Flags, v: byte): (r: (Flags, byte))
    ensures v > 0 ==> r.1 == v - 1
    ensures v == 0 ==> r.1 == 0xFF
    ensures r.0.z == 1 <==> v == 1
    ensures r.0.s == 1 <==> r.1 >= 0x80
    ensures r.0.p == ParityOf(r.1, 8)
    ensures r.0.cy == f.cy && r.0.ac == f.ac
  {
    var res := Wrap8(v - 1);
    assert v == 0 ==> res == 0xFF;
    (SetZSP(f, res), res)
  }

  /** DAD rp: HL + rp in 32 bits; H and L take bits 15-0, carry is bit 16.
      The new HL and the carry together hold the 17-bit sum, and nothing
      but H, L and the carry changes. */
  function AddToHL(st: State, rp: u16): (r: State)
    ensures HL(r) + 0x1_0000 * r.flags.cy == HL(st) + rp
    ensures r == st.(h := r.h, l := r.l, flags := st.flags.(cy := r.flags.cy))
  {
    var res := HL(st) + rp;
    SplitSum17(res);
    st.(h := (res / 0x100) % 0x100, l := res % 0x100,
        flags := st.flags.(cy := BitOf(res > 0xFFFF)))
  }

  /** ADD r / ADD M as written: z, s and cy from the 16-bit sum, parity left
      alone. A and the carry together hold the 9-bit sum; p and ac keep
      their old values; nothing but A and the flags changes. */
  function AddToA(st: State, v: byte): (r: State)
    ensures r.a + 0x100 * r.flags.cy == st.a + v
    ensures r.flags.z == 1 <==> r.a == 0
    ensures r.flags.s == 1 <==> r.a >= 0x80
    ensures r.flags.p == st.flags.p && r.flags.ac == st.flags.ac
    ensures r == st.(a := r.a, flags := r.flags)
  {
    var answer := st.a + v;
    SplitSum9(answer);
    st.(a := answer % 0x100,
        flags := st.flags.(z := BitOf(answer % 0x100 == 0), s := SignBit(answer),
                           cy := BitOf(answer > 0xFF)))
  }

  /** ANA A, XRA A, ANI: the logical result with cy and ac cleared. */
  function LogicalResult(st: State, res: byte): State
  {
    st.(a := res, flags := SetZSP(st.flags.(cy := 0, ac := 0), res))
  }

  /** PUSH: `mem[sp - 1] = hi; mem[sp - 2] = lo; sp -= 2`. */
  function PushBytes(st: State, hi: byte, lo: byte): State
    requires st.sp >= 2
  {
    st.(mem := st.mem[st.sp - 1 := hi][st.sp - 2 := lo], sp := st.sp - 2)
  }

  /** The processor status word pushed by PUSH PSW: z in bit 0, s in bit 1,
      p in bit 2, cy in bit 3, ac in bit 4, the top three bits clear. */
  function PackPsw(f: Flags): (psw: byte)
    ensures psw < 0x20
    ensures BitAt(psw, 0) == f.z && BitAt(psw, 1) == f.s && BitAt(psw, 2) == f.p
    ensures BitAt(psw, 3) == f.cy && BitAt(psw, 4) == f.ac
  {
    var x := f.z + 2 * f.s + 4 * f.p + 8 * f.cy + 16 * f.ac;
    assert Pow2(1) == 2 && Pow2(2) == 4 && Pow2(3) == 8 && Pow2(4) == 16;
    BitAtSplit(x, 0, 0, f.z, f.s + 2 * f.p + 4 * f.cy + 8 * f.ac);
    BitAtSplit(x, 1, f.z, f.s, f.p + 2 * f.cy + 4 * f.ac);
    BitAtSplit(x, 2, f.z + 2 * f.s, f.p, f.cy + 2 * f.ac);
    BitAtSplit(x, 3, f.z + 2 * f.s + 4 * f.p, f.cy, f.ac);
    BitAtSplit(x, 4, f.z + 2 * f.s + 4 * f.p + 8 * f.cy, f.ac, 0);
    x
  }

  /** The flags POP PSW unpacks, as written: z, s, p and ac come from bits
      0, 1, 2 and 4, but the carry test compares the masked bit 3 with 0x05
      and can never succeed, so the carry always comes back clear. */
  function UnpackPsw(psw: byte): (g: Flags)
    ensures g.z == BitAt(psw, 0) && g.s == BitAt(psw, 1) && g.p == BitAt(psw, 2)
    ensures g.ac == BitAt(psw, 4)
    ensures g.cy == 0
  {
    assert Pow2(1) == 2 && Pow2(2) == 4 && Pow2(3) == 8 && Pow2(4) == 16;
    Flags(z := BitOf(0x01 == MaskBit(psw, 0)),
          s := BitOf(0x02 == MaskBit(psw, 1)),
          p := BitOf(0x04 == MaskBit(psw, 2)),
          cy := BitOf(0x05 == MaskBit(psw, 3)),
          ac := BitOf(0x10 == MaskBit(psw, 4)))
  }

  /** One instruction after the opcode fetch: `st` already has `pc` advanced
      past the opcode byte, which sat at `start`. Every opcode outside the
      groups faults. */
  function Execute(op: byte, start: u16, st: State): (r: (Outcome, State))
    requires start + OpBytes(op) <= 0x1_0000
    requires Pushes(op) ==> st.sp >= 2
    requires Pops(op) ==> st.sp <= 0xFFFE
    ensures r.0.Faulted? <==> !Implemented(op)
    ensures r.0.Faulted? ==> r == (Faulted(op, start), st)
  {
    if LoadPairImmediate(op) then (Running, ExecuteLoadPairImmediate(op, start, st))
    else if MoveImmediate(op) then (Running, ExecuteMoveImmediate(op, start, st))
    else if MoveRegister(op) then (Running, ExecuteMoveRegister(op, start, st))
    else if MoveMemory(op) then (Running, ExecuteMoveMemory(op, start, st))
    else if LoadStore(op) then (Running, ExecuteLoadStore(op, start, st))
    else if DecrementIncrement(op) then (Running, ExecuteDecrementIncrement(op, start, st))
    else if DoubleAdd(op) then (Running, ExecuteDoubleAdd(op, start, st))
    else if AddRegister(op) then (Running, ExecuteAddRegister(op, start, st))
    else if AddImmediate(op) then (Running, ExecuteAddImmediate(op, start, st))
    else if Logical(op) then (Running, ExecuteLogical(op, start, st))
    else if LogicalImmediate(op) then (Running, ExecuteLogicalImmediate(op, start, st))
    else if PushOp(op) then (Running, ExecutePush(op, start, st))
    else if PopOp(op) then (Running, ExecutePop(op, start, st))
    else if Jump(op) then (Running, ExecuteJump(op, start, st))
    else if CallReturn(op) then (Running, ExecuteCallReturn(op, start, st))
    else if Control(op) then (Running, ExecuteControl(op, start, st))
    else (Faulted(op, start), st)  // NotImplementedInstruction
  }

  /** LXI: load a register pair from the two operand bytes. */
  function ExecuteLoadPairImmediate(op: byte, start: u16, st: State): (r: State)
    requires LoadPairImmediate(op)
    requires start + OpBytes(op) <= 0x1_0000
    ensures r == st.(b := r.b, c := r.c, d := r.d, e := r.e, h := r.h, l := r.l, sp := r.sp,
                     pc := Wrap16(st.pc + 2))
  {
    var m := st.mem;
    match op
    case 0x01 => st.(c := m[start + 1], b := m[start + 2], pc := Wrap16(st.pc + 2))
    case 0x11 => st.(e := m[start + 1], d := m[start + 2], pc := Wrap16(st.pc + 2))
    case 0x21 => st.(l := m[start + 1], h := m[start + 2], pc := Wrap16(st.pc + 2))
    case 0x31 => st.(sp := Word(m[start + 2], m[start + 1]), pc := Wrap16(st.pc + 2))
  }

  /** MVI: load a register or the byte at HL from the operand byte. */
  function ExecuteMoveImmediate(op: byte, start: u16, st: State): (r: State)
    requires MoveImmediate(op)
    requires start + OpBytes(op) <= 0x1_0000
    ensures r.flags == st.flags && r.sp == st.sp && r.pc == Wrap16(st.pc + 1)
    ensures op != 0x36 ==> r.mem == st.mem
  {
    var m := st.mem;
    match op
    case 0x06 => st.(b := m[start + 1], pc := Wrap16(st.pc + 1))  // MVI B
    case 0x0e => st.(c := m[start + 1], pc := Wrap16(st.pc + 1))  // MVI C
    case 0x26 => st.(h := m[start + 1], pc := Wrap16(st.pc + 1))  // MVI H
    case 0x36 => st.(mem := m[HL(st) := m[start + 1]], pc := Wrap16(st.pc + 1))
    case 0x3e => st.(a := m[start + 1], pc := Wrap16(st.pc + 1))  // MVI A
  }

  /** MOV between registers. */
  function ExecuteMoveRegister(op: byte, start: u16, st: State): (r: State)
    requires MoveRegister(op)
    requires start + OpBytes(op) <= 0x1_0000
    ensures r == st.(a := r.a, b := r.b, l := r.l)
  {
    var m := st.mem;
    match op
    case 0x41 => st.(b := st.c)  // MOV B,C
    case 0x42 => st.(b := st.d)  // MOV B,D
    case 0x43 => st.(b := st.e)  // MOV B,E
    case 0x6f => st.(l := st.a)  // MOV L,A
    case 0x7a => st.(a := st.d)  // MOV A,D
    case 0x7b => st.(a := st.e)  // MOV A,E
    case 0x7c => st.(a := st.h)  // MOV A,H
  }

  /** MOV to or from the byte at HL. */
  function ExecuteMoveMemory(op: byte, start: u16, st: State): (r: State)
    requires MoveMemory(op)
    requires start + OpBytes(op) <= 0x1_0000
    ensures r.flags == st.flags && r.sp == st.sp && r.pc == st.pc
    ensures op != 0x77 ==> r.mem == st.mem
  {
    var m := st.mem;
    match op
    case 0x56 => st.(d := m[HL(st)])  // MOV D,M
    case 0x5e => st.(e := m[HL(st)])  // MOV E,M
    case 0x66 => st.(h := m[HL(st)])  // MOV H,M
    case 0x77 => st.(mem := m[HL(st) := st.a])  // MOV M,A
    case 0x7e => st.(a := m[HL(st)])  // MOV A,M
  }

  /** LDAX D, STA, LDA and XCHG. */
  function ExecuteLoadStore(op: byte, start: u16, st: State): (r: State)
    requires LoadStore(op)
    requires start + OpBytes(op) <= 0x1_0000
    ensures r.flags == st.flags && r.sp == st.sp
    ensures r.pc == Wrap16(st.pc + OpBytes(op) - 1)
    ensures op != 0x32 ==> r.mem == st.mem
  {
    var m := st.mem;
    match op
    case 0x1a => st.(a := m[DE(st)])  // LDAX D
    case 0x32 => st.(mem := m[Word(m[start + 2], m[start + 1]) := st.a], pc := Wrap16(st.pc + 2))
    case 0x3a => st.(a := m[Word(m[start + 2], m[start + 1])], pc := Wrap16(st.pc + 2))
    case 0xeb => st.(d := st.h, e := st.l, h := st.d, l := st.e)  // XCHG
  }

  /** DCR B, DCR C, INX D and INX H. */
  function ExecuteDecrementIncrement(op: byte, start: u16, st: State): (r: State)
    requires DecrementIncrement(op)
    requires start + OpBytes(op) <= 0x1_0000
    ensures r == st.(b := r.b, c := r.c, d := r.d, e := r.e, h := r.h, l := r.l, flags := r.flags)
    ensures op == 0x13 || op == 0x23 ==> r.flags == st.flags
  {
    var m := st.mem;
    match op
    case 0x05 => var (f, res) := Decrement(st.flags, st.b); st.(b := res, flags := f)
    case 0x0d => var (f, res) := Decrement(st.flags, st.c); st.(c := res, flags := f)
    case 0x13 =>  // INX D
      var e := Wrap8(st.e + 1);
      st.(e := e, d := if e == 0 then Wrap8(st.d + 1) else st.d)
    case 0x23 =>  // INX H
      var l := Wrap8(st.l + 1);
      st.(l := l, h := if l == 0 then Wrap8(st.h + 1) else st.h)
  }

  /** DAD B, DAD D and DAD H: add a pair into HL. */
  function ExecuteDoubleAdd(op: byte, start: u16, st: State): (r: State)
    requires DoubleAdd(op)
    requires start + OpBytes(op) <= 0x1_0000
    ensures r == st.(h := r.h, l := r.l, flags := st.flags.(cy := r.flags.cy))
  {
    var m := st.mem;
    match op
    case 0x09 => AddToHL(st, BC(st))  // DAD B
    case 0x19 => AddToHL(st, DE(st))  // DAD D
    case 0x29 => AddToHL(st, HL(st))  // DAD H
  }

  /** ADD B, ADD C and ADD M. */
  function ExecuteAddRegister(op: byte, start: u16, st: State): (r: State)
    requires AddRegister(op)
    requires start + OpBytes(op) <= 0x1_0000
    ensures r == st.(a := r.a, flags := r.flags)
    ensures r.flags.p == st.flags.p && r.flags.ac == st.flags.ac
  {
    var m := st.mem;
    match op
    case 0x80 => AddToA(st, st.b)  // ADD B
    case 0x81 => AddToA(st, st.c)  // ADD C
    case 0x86 => AddToA(st, m[HL(st)])  // ADD M
  }

  /** ADI: add the operand byte into A. */
  function ExecuteAddImmediate(op: byte, start: u16, st: State): (r: State)
    requires AddImmediate(op)
    requires start + OpBytes(op) <= 0x1_0000
    ensures r == st.(a := r.a, flags := r.flags, pc := Wrap16(st.pc + 1))
    ensures r.flags.ac == st.flags.ac
  {
    var m := st.mem;
    match op
    case 0xc6 =>  // ADI
      var answer := st.a + m[start + 1];
      st.(a := answer % 0x100, pc := Wrap16(st.pc + 1),
          flags := st.flags.(z := BitOf(answer % 0x100 == 0), s := SignBit(answer),
                             cy := BitOf(answer > 0xFF), p := ParityOf(answer % 0x100, 8)))
  }

  /** RRC, CMA, ANA A and XRA A. */
  function ExecuteLogical(op: byte, start: u16, st: State): (r: State)
    requires Logical(op)
    requires start + OpBytes(op) <= 0x1_0000
    ensures r == st.(a := r.a, flags := r.flags)
  {
    var m := st.mem;
    match op
    case 0x0f =>  // RRC
      var x := st.a;
      st.(a := (x % 2) * 0x80 + x / 2, flags := st.flags.(cy := BitOf(x % 2 == 1)))
    case 0x2f => st.(a := Not8(st.a))  // CMA
    case 0xa7 => LogicalResult(st, And8(st.a, st.a))  // ANA A
    case 0xaf => LogicalResult(st, Xor8(st.a, st.a))  // XRA A
  }

  /** ANI and CPI: AND with, or compare with, the operand byte. */
  function ExecuteLogicalImmediate(op: byte, start: u16, st: State): (r: State)
    requires LogicalImmediate(op)
    requires start + OpBytes(op) <= 0x1_0000
    ensures r == st.(a := r.a, flags := r.flags, pc := Wrap16(st.pc + 1))
    ensures op == 0xfe ==> r.a == st.a
  {
    var m := st.mem;
    match op
    case 0xe6 =>  // ANI
      LogicalResult(st, And8(st.a, m[start + 1])).(pc := Wrap16(st.pc + 1))
    case 0xfe =>  // CPI
      var x := Wrap8(st.a - m[start + 1]);
      st.(flags := SetZSP(st.flags, x).(cy := BitOf(st.a < m[start + 1])),
          pc := Wrap16(st.pc + 1))
  }

  /** PUSH B, D, H and PSW. */
  function ExecutePush(op: byte, start: u16, st: State): (r: State)
    requires PushOp(op)
    requires start + OpBytes(op) <= 0x1_0000
    requires Pushes(op) ==> st.sp >= 2
    requires Pops(op) ==> st.sp <= 0xFFFE
    ensures r == st.(mem := r.mem, sp := st.sp - 2)
    ensures forall i | 0 <= i < 0x1_0000 && i != st.sp - 1 && i != st.sp - 2 :: r.mem[i] == st.mem[i]
  {
    var m := st.mem;
    match op
    case 0xc5 => PushBytes(st, st.b, st.c)  // PUSH B
    case 0xd5 => PushBytes(st, st.d, st.e)  // PUSH D
    case 0xe5 => PushBytes(st, st.h, st.l)  // PUSH H
    case 0xf5 => PushBytes(st, st.a, PackPsw(st.flags))  // PUSH PSW
  }

  /** POP B, D, H and PSW. */
  function ExecutePop(op: byte, start: u16, st: State): (r: State)
    requires PopOp(op)
    requires start + OpBytes(op) <= 0x1_0000
    requires Pushes(op) ==> st.sp >= 2
    requires Pops(op) ==> st.sp <= 0xFFFE
    ensures r.mem == st.mem && r.pc == st.pc && r.sp == Wrap16(st.sp + 2)
  {
    var m := st.mem;
    match op
    case 0xc1 => st.(c := m[st.sp], b := m[st.sp + 1], sp := Wrap16(st.sp + 2))
    case 0xd1 => st.(e := m[st.sp], d := m[st.sp + 1], sp := Wrap16(st.sp + 2))
    case 0xe1 => st.(l := m[st.sp], h := m[st.sp + 1], sp := Wrap16(st.sp + 2))
    case 0xf1 =>  // POP PSW
      st.(a := m[st.sp + 1], flags := UnpackPsw(m[st.sp]), sp := Wrap16(st.sp + 2))
  }

  /** JNZ and JMP. */
  function ExecuteJump(op: byte, start: u16, st: State): (r: State)
    requires Jump(op)
    requires start + OpBytes(op) <= 0x1_0000
    ensures r == st.(pc := r.pc)
  {
    var m := st.mem;
    match op
    case 0xc2 =>  // JNZ
      if st.flags.z == 0 then st.(pc := Word(m[start + 2], m[start + 1]))
      else st.(pc := Wrap16(st.pc + 2))
    case 0xc3 => st.(pc := Word(m[start + 2], m[start + 1]))  // JMP
  }

  /** CALL and RET. */
  function ExecuteCallReturn(op: byte, start: u16, st: State): (r: State)
    requires CallReturn(op)
    requires start + OpBytes(op) <= 0x1_0000
    requires Pushes(op) ==> st.sp >= 2
    requires Pops(op) ==> st.sp <= 0xFFFE
    ensures r == st.(mem := r.mem, sp := r.sp, pc := r.pc)
    ensures op == 0xc9 ==> r.mem == st.mem && r.sp == Wrap16(st.sp + 2)
    ensures op == 0xcd ==> r.sp == st.sp - 2
    ensures op == 0xcd ==>
              forall i | 0 <= i < 0x1_0000 && i != st.sp - 1 && i != st.sp - 2 :: r.mem[i] == st.mem[i]
  {
    var m := st.mem;
    match op
    case 0xcd =>  // CALL
      var ret := Wrap16(st.pc + 2);
      var pushed := PushBytes(st, HighByte(ret), LowByte(ret));
      pushed.(pc := Word(pushed.mem[start + 2], pushed.mem[start + 1]))
    case 0xc9 => st.(pc := Word(m[st.sp + 1], m[st.sp]), sp := Wrap16(st.sp + 2))
  }

  /** NOP, OUT and EI. */
  function ExecuteControl(op: byte, start: u16, st: State): (r: State)
    requires Control(op)
    requires start + OpBytes(op) <= 0x1_0000
    ensures r == st.(pc := r.pc, intEnable := r.intEnable)
  {
    var m := st.mem;
    match op
    case 0x00 => st  // NOP
    case 0xd3 => st.(pc := Wrap16(st.pc + 1))  // OUT
    case 0xfb => st.(intEnable := 1)  // EI
  }

  /** `Emulate8080Operation`: fetch the opcode at `pc`, advance `pc` by one,
      execute. An unimplemented opcode faults with `pc` already advanced and
      nothing else changed. */
  function Step(st: State): (r: (Outcome, State))
    requires InBuffer(st)
    ensures r.0.Faulted? <==> !Implemented(st.mem[st.pc])
    ensures r.0.Running? <==> Implemented(st.mem[st.pc])
    ensures r.0.Faulted? ==>
              r.0 == Faulted(st.mem[st.pc], st.pc) && r.1 == st.(pc := Wrap16(st.pc + 1))
  {
    Execute(st.mem[st.pc], st.pc, st.(pc := Wrap16(st.pc + 1)))
  }

  /** The driver loop, which calls `Emulate8080Operation` until the window
      is closed, taken for `n` iterations: it ends early at the first fault,
      and before a step that would access memory outside the buffer. */
  function Run(st: State, n: nat): (r: (Outcome, State))
    ensures n == 0 ==> r == (Running, st)
    ensures r.0.OutOfBuffer? ==> !InBuffer(r.1)
    ensures r.0.Faulted? ==> !Implemented(r.1.mem[Wrap16(r.1.pc - 1)])
    decreases n
  {
    if n == 0 then (Running, st)
    else if !InBuffer(st) then (OutOfBuffer, st)
    else
      var (o, next) := Step(st);
      if o.Faulted? then (o, next) else Run(next, n - 1)
  }
}

=== FILE: cpuprops.dfy ===
/** Properties of the interpreter's instruction groups, stated against the
    regular encoding of the 8080 instruction set (Intel 8080 Microcomputer
    Systems User's Manual, chapter 4): a register is named by a three-bit
    field (B C D E H L M A = 0..7), a register pair by a two-bit field
    (BC DE HL SP = 0..3). The interpreter spells every opcode out as its own
    `case`; the lemmas show that each case does what its encoding says, that
    `pc` ends past as many bytes as the disassembler's `opbytes` table
    gives, and that instructions which undo each other do so.

    Every lemma takes `st` as `Execute` receives it: `pc` already advanced
    past the opcode byte, which sat at `start`. */
module CpuProps {
  import opened Bits
  import opened ParityFlag
  import opened Decode
  import opened Cpu

  /** Bits 5-3 of an opcode: the destination register. */
  function DstField(op: byte): (r: nat)
    ensures r < 8
  {
    (op / 8) % 8
  }

  /** Bits 2-0 of an opcode: the source register. */
  function SrcField(op: byte): (r: nat)
    ensures r < 8
  {
    op % 8
  }

  /** Bits 5-4 of an opcode: the register pair. */
  function PairField(op: byte): (r: nat)
    ensures r < 4
  {
    (op / 16) % 4
  }

  /** Register `r` in the 8080 numbering, 6 being the byte at HL. */
  function Reg(r: nat, st: State): byte
    requires r < 8
  {
    match r
    case 0 => st.b
    case 1 => st.c
    case 2 => st.d
    case 3 => st.e
    case 4 => st.h
    case 5 => st.l
    case 6 => st.mem[HL(st)]
    case 7 => st.a
  }

  /** `st` with register `r` set to `v`; everything else as it was. */
  function SetReg(r: nat, st: State, v: byte): (s: State)
    requires r < 8
    ensures r != 6 ==> Reg(r, s) == v
  {
    match r
    case 0 => st.(b := v)
    case 1 => st.(c := v)
    case 2 => st.(d := v)
    case 3 => st.(e := v)
    case 4 => st.(h := v)
    case 5 => st.(l := v)
    case 6 => st.(mem := st.mem[HL(st) := v])
    case 7 => st.(a := v)
  }

  /** Register pair `rp` in the 8080 numbering. */
  function Pair(rp: nat, st: State): u16
    requires rp < 4
  {
    match rp
    case 0 => BC(st)
    case 1 => DE(st)
    case 2 => HL(st)
    case 3 => st.sp
  }

  /** `st` with register pair `rp` set to `w`; everything else as it was. */
  function SetPair(rp: nat, st: State, w: u16): (s: State)
    requires rp < 4
    ensures Pair(rp, s) == w
  {
    match rp
    case 0 => st.(b := HighByte(w), c := LowByte(w))
    case 1 => st.(d := HighByte(w), e := LowByte(w))
    case 2 => st.(h := HighByte(w), l := LowByte(w))
    case 3 => st.(sp := w)
  }

  /** The little-endian address or data word after the opcode. */
  function Operand16(st: State, start: u16): u16
    requires start + 3 <= 0x1_0000
  {
    Word(st.mem[start + 2], st.mem[start + 1])
  }

  /** `pc` advanced past the opcode and then past `k` operand bytes. */
  lemma Wrap16Step(x: u16, k: nat)
    requires k <= 3
    ensures Wrap16(Wrap16(x + 1) + k) == Wrap16(x + 1 + k)
  {
    if x + 1 == 0x1_0000 {
      assert Wrap16(x + 1 + k) == k;
    }
  }

  /** LXI rp: the pair named by bits 5-4 takes the operand word; `pc` ends
      three bytes on. */
  lemma LoadPairImmediateSpec(op: byte, start: u16, st: State)
    requires LoadPairImmediate(op) && start + OpBytes(op) <= 0x1_0000
    requires st.pc == Wrap16(start + 1)
    ensures ExecuteLoadPairImmediate(op, start, st) ==
              SetPair(PairField(op), st, Operand16(st, start)).(pc := Wrap16(start + OpBytes(op)))
  {
    Wrap16Step(start, 2);
  }

  /** MVI r: the register named by bits 5-3 takes the operand byte; `pc`
      ends two bytes on. */
  lemma MoveImmediateSpec(op: byte, start: u16, st: State)
    requires MoveImmediate(op) && start + OpBytes(op) <= 0x1_0000
    requires st.pc == Wrap16(start + 1)
    ensures ExecuteMoveImmediate(op, start, st) ==
              SetReg(DstField(op), st, st.mem[start + 1]).(pc := Wrap16(start + OpBytes(op)))
  {
    Wrap16Step(start, 1);
  }

  /** MOV d,s between registers: register d (bits 5-3) takes register s
      (bits 2-0); nothing else changes. */
  lemma MoveRegisterSpec(op: byte, start: u16, st: State)
    requires MoveRegister(op) && start + OpBytes(op) <= 0x1_0000
    ensures OpBytes(op) == 1
    ensures ExecuteMoveRegister(op, start, st) == SetReg(DstField(op), st, Reg(SrcField(op), st))
  {
  }

  /** MOV to or from M: the same rule, register 6 being the byte at HL. */
  lemma MoveMemorySpec(op: byte, start: u16, st: State)
    requires MoveMemory(op) && start + OpBytes(op) <= 0x1_0000
    ensures OpBytes(op) == 1
    ensures ExecuteMoveMemory(op, start, st) == SetReg(DstField(op), st, Reg(SrcField(op), st))
  {
  }

  /** LDAX D loads A from the address in DE; LDA and STA load and store A
      at the operand address; XCHG swaps DE and HL. No flag changes. */
  lemma LoadStoreSpec(op: byte, start: u16, st: State)
    requires LoadStore(op) && start + OpBytes(op) <= 0x1_0000
    requires st.pc == Wrap16(start + 1)
    ensures var r := ExecuteLoadStore(op, start, st);
      && r.pc == Wrap16(start + OpBytes(op))
      && (op == 0x1a ==> r == st.(a := st.mem[Pair(1, st)]))
      && (op == 0x32 ==> r == st.(mem := st.mem[Operand16(st, start) := st.a], pc := r.pc))
      && (op == 0x3a ==> r == st.(a := st.mem[Operand16(st, start)], pc := r.pc))
      && (op == 0xeb ==> r == SetPair(2, SetPair(1, st, HL(st)), DE(st)))
  {
    Wrap16Step(start, 2);
  }

  /** XCHG twice leaves every register as it was. */
  lemma ExchangeTwice(start: u16, start': u16, st: State)
    requires start + 1 <= 0x1_0000 && start' + 1 <= 0x1_0000
    ensures ExecuteLoadStore(0xeb, start', ExecuteLoadStore(0xeb, start, st)) == st
  {
  }

  /** STA then LDA at the same address gives A back; the store writes that
      one byte and nothing else. */
  lemma StoreThenLoad(start: u16, start': u16, st: State)
    requires start + 3 <= 0x1_0000 && start' + 3 <= 0x1_0000
    requires var mid := ExecuteLoadStore(0x32, start, st);
      Operand16(mid, start') == Operand16(st, start)
    ensures var mid := ExecuteLoadStore(0x32, start, st);
      && mid.mem == st.mem[Operand16(st, start) := st.a]
      && ExecuteLoadStore(0x3a, start', mid).a == st.a
  {
  }

  /** DCR r: the register named by bits 5-3 goes through `Decrement`;
      nothing else but the flags changes. */
  lemma DecrementRegisterSpec(op: byte, start: u16, st: State)
    requires op == 0x05 || op == 0x0d
    requires start + OpBytes(op) <= 0x1_0000
    ensures OpBytes(op) == 1
    ensures var d := Decrement(st.flags, Reg(DstField(op), st));
      ExecuteDecrementIncrement(op, start, st) == SetReg(DstField(op), st, d.1).(flags := d.0)
  {
    assert DstField(op) == if op == 0x05 then 0 else 1;
  }

  /** INX rp: the pair counts up by one modulo 2^16; no flag changes. */
  lemma IncrementPairSpec(op: byte, start: u16, st: State)
    requires op == 0x13 || op == 0x23
    requires start + OpBytes(op) <= 0x1_0000
    ensures OpBytes(op) == 1
    ensures ExecuteDecrementIncrement(op, start, st) ==
              SetPair(PairField(op), st, Wrap16(Pair(PairField(op), st) + 1))
  {
    assert PairField(op) == if op == 0x13 then 1 else 2;
    if op == 0x13 {
      IncrementWord(st.d, st.e);
      var w := Wrap16(DE(st) + 1);
      assert SetPair(1, st, w) == st.(d := HighByte(w), e := LowByte(w));
    } else {
      IncrementWord(st.h, st.l);
      var w := Wrap16(HL(st) + 1);
      assert SetPair(2, st, w) == st.(h := HighByte(w), l := LowByte(w));
    }
  }

  /** Carrying from the low byte into the high byte is adding one to the word. */
  lemma IncrementWord(hi: byte, lo: byte)
    ensures var w, lo' := Wrap16(Word(hi, lo) + 1), Wrap8(lo + 1);
      && HighByte(w) == (if lo' == 0 then Wrap8(hi + 1) else hi)
      && LowByte(w) == lo'
  {
    var x := Word(hi, lo) + 1;
    assert x == hi * 0x100 + lo + 1;
    if lo < 0xFF {
      DivModUnique(x, 0x100, hi, lo + 1);
      assert Wrap16(x) == x && Wrap8(lo + 1) == lo + 1;
    } else if hi < 0xFF {
      DivModUnique(x, 0x100, hi + 1, 0);
      assert Wrap16(x) == x && Wrap8(lo + 1) == 0 && Wrap8(hi + 1) == hi + 1;
    } else {
      assert x == 0x1_0000 && Wrap16(x) == 0;
      assert Wrap8(lo + 1) == 0 && Wrap8(hi + 1) == 0;
    }
  }

  /** DAD rp: the new HL and the carry together hold the full 17-bit sum of
      HL and the pair; only H, L and cy change. */
  lemma DoubleAddSpec(op: byte, start: u16, st: State)
    requires DoubleAdd(op) && start + OpBytes(op) <= 0x1_0000
    ensures OpBytes(op) == 1
    ensures var r := ExecuteDoubleAdd(op, start, st);
      && HL(r) + 0x1_0000 * r.flags.cy == HL(st) + Pair(PairField(op), st)
      && r == st.(h := r.h, l := r.l, flags := st.flags.(cy := r.flags.cy))
  {
    assert PairField(op) == if op == 0x09 then 0 else if op == 0x19 then 1 else 2;
    SplitSum17(HL(st) + Pair(PairField(op), st));
  }

  /** ADD r: A and the carry together hold the 9-bit sum of A and register r
      (bits 2-0); z and s describe the new A; p and ac keep their old values. */
  lemma AddRegisterSpec(op: byte, start: u16, st: State)
    requires AddRegister(op) && start + OpBytes(op) <= 0x1_0000
    ensures OpBytes(op) == 1
    ensures var r := ExecuteAddRegister(op, start, st);
      && r.a + 0x100 * r.flags.cy == st.a + Reg(SrcField(op), st)
      && (r.flags.z == 1 <==> r.a == 0)
      && (r.flags.s == 1 <==> r.a >= 0x80)
      && r.flags.p == st.flags.p && r.flags.ac == st.flags.ac
      && r == st.(a := r.a, flags := r.flags)
  {
    SplitSum9(st.a + Reg(SrcField(op), st));
  }

  /** ADI: the same 9-bit sum with the operand byte, and p now describes the
      new A. */
  lemma AddImmediateSpec(start: u16, st: State)
    requires start + 2 <= 0x1_0000
    requires st.pc == Wrap16(start + 1)
    ensures var r := ExecuteAddImmediate(0xc6, start, st);
      && r.a + 0x100 * r.flags.cy == st.a + st.mem[start + 1]
      && (r.flags.z == 1 <==> r.a == 0)
      && (r.flags.s == 1 <==> r.a >= 0x80)
      && r.flags.p == ParityOf(r.a, 8)
      && r.flags.ac == st.flags.ac
      && r == st.(a := r.a, flags := r.flags, pc := Wrap16(start + OpBytes(0xc6)))
  {
    SplitSum9(st.a + st.mem[start + 1]);
    Wrap16Step(start, 1);
  }

  /** `x` rotated left by one bit, the inverse of RRC. */
  function RotateLeft(x: byte): byte
  {
    (x * 2) % 0x100 + x / 0x80
  }

  /** RRC rotates A right by one bit: rotating back left gives A, and cy is
      the bit that went round. Only A and cy change. */
  lemma RotateRightSpec(start: u16, st: State)
    requires start + 1 <= 0x1_0000
    ensures var r := ExecuteLogical(0x0f, start, st);
      && RotateLeft(r.a) == st.a
      && r.flags.cy == st.a % 2
      && r == st.(a := r.a, flags := st.flags.(cy := r.flags.cy))
  {
    var x: int := st.a;
    var y: int := (x % 2) * 0x80 + x / 2;
    assert (y * 2) % 0x100 == 2 * (x / 2);
    assert y / 0x80 == x % 2;
  }

  /** CMA complements A and touches no flag; twice gives A back. */
  lemma ComplementSpec(start: u16, start': u16, st: State)
    requires start + 1 <= 0x1_0000 && start' + 1 <= 0x1_0000
    ensures var r := ExecuteLogical(0x2f, start, st);
      && r.a + st.a == 0xFF
      && r == st.(a := r.a)
      && ExecuteLogical(0x2f, start', r) == st
  {
  }

  /** ANA A, XRA A and ANI: the new A is A itself, zero, or A AND the
      operand byte; cy and ac are cleared; z, s and p describe the new A;
      ANI ends two bytes on. */
  lemma LogicalFlags(op: byte, start: u16, st: State)
    requires op == 0xa7 || op == 0xaf || op == 0xe6
    requires start + OpBytes(op) <= 0x1_0000
    requires st.pc == Wrap16(start + 1)
    ensures var r := if op == 0xe6 then ExecuteLogicalImmediate(op, start, st)
                     else ExecuteLogical(op, start, st);
      && (op == 0xa7 ==> r.a == st.a)
      && (op == 0xaf ==> r.a == 0)
      && (op == 0xe6 ==> r.a == And8(st.a, st.mem[start + 1]))
      && r.flags.cy == 0 && r.flags.ac == 0
      && (r.flags.z == 1 <==> r.a == 0)
      && (r.flags.s == 1 <==> r.a >= 0x80)
      && r.flags.p == ParityOf(r.a, 8)
      && r == st.(a := r.a, flags := r.flags, pc := Wrap16(start + OpBytes(op)))
  {
    AndSelf(st.a);
    XorSelf(st.a);
    Wrap16Step(start, 1);
  }

  /** XRA A clears A; afterwards z and p are set and s, cy, ac clear. */
  lemma ExclusiveOrSelf(start: u16, st: State)
    requires start + 1 <= 0x1_0000
    ensures var r := ExecuteLogical(0xaf, start, st);
      && r.a == 0
      && r.flags == Flags(z := 1, s := 0, p := 1, cy := 0, ac := 0)
  {
    XorSelf(st.a);
    ParityOfZero(8);
  }

  /** CPI: A is compared with the operand and left alone; z means equal, cy
      means below; s and p describe the byte difference `A - operand`; `pc`
      ends two bytes on. */
  lemma CompareImmediateSpec(start: u16, st: State)
    requires start + 2 <= 0x1_0000
    requires st.pc == Wrap16(start + 1)
    ensures var imm, r := st.mem[start + 1], ExecuteLogicalImmediate(0xfe, start, st);
      && (r.flags.z == 1 <==> st.a == imm)
      && (r.flags.cy == 1 <==> st.a < imm)
      && (r.flags.s == 1 <==> Wrap8(st.a - imm) >= 0x80)
      && r.flags.p == ParityOf(Wrap8(st.a - imm), 8)
      && r.flags.ac == st.flags.ac
      && r == st.(flags := r.flags, pc := Wrap16(start + OpBytes(0xfe)))
  {
    var imm := st.mem[start + 1];
    WrapDifference(st.a, imm);
    var r := ExecuteLogicalImmediate(0xfe, start, st);
    assert r.flags.z == BitOf(Wrap8(st.a - imm) == 0);
    Wrap16Step(start, 1);
  }

  /** The byte difference `a - b` stored into A is zero only when `a == b`. */
  lemma WrapDifference(a: byte, b: byte)
    ensures Wrap8(a - b) == 0 <==> a == b
  {
    if a < b {
      DivModUnique(a - b, 0x100, -1, a - b + 0x100);
    }
  }

  /** The word PUSH rp saves: the pair, or A and the flag byte for PSW. */
  function PushedWord(op: byte, st: State): u16
    requires PushOp(op)
  {
    if op == 0xf5 then Word(st.a, PackPsw(st.flags)) else Pair(PairField(op), st)
  }

  /** PUSH: the word goes below `sp`, high byte on top, and `sp` drops by
      two; the rest of memory and every register stay. */
  lemma PushSpec(op: byte, start: u16, st: State)
    requires PushOp(op) && start + OpBytes(op) <= 0x1_0000 && st.sp >= 2
    ensures OpBytes(op) == 1
    ensures var r := ExecutePush(op, start, st);
      && r.sp == st.sp - 2
      && Word(r.mem[r.sp + 1], r.mem[r.sp]) == PushedWord(op, st)
      && (forall i | 0 <= i < 0x1_0000 && i != r.sp && i != r.sp + 1 :: r.mem[i] == st.mem[i])
      && r == st.(mem := r.mem, sp := r.sp)
  {
    assert PairField(op) == if op == 0xc5 then 0 else if op == 0xd5 then 1 else if op == 0xe5 then 2 else 3;
  }

  /** POP B, D, H: the pair takes the word at `sp`, and `sp` rises by two
      (to 0 from 0xFFFE). */
  lemma PopSpec(op: byte, start: u16, st: State)
    requires op == 0xc1 || op == 0xd1 || op == 0xe1
    requires start + OpBytes(op) <= 0x1_0000 && st.sp <= 0xFFFE
    ensures OpBytes(op) == 1
    ensures ExecutePop(op, start, st) ==
              SetPair(PairField(op), st, Word(st.mem[st.sp + 1], st.mem[st.sp])).(sp := Wrap16(st.sp + 2))
  {
    assert PairField(op) == if op == 0xc1 then 0 else if op == 0xd1 then 1 else 2;
  }

  /** POP PSW as written: A takes the byte above `sp`; z, s, p and ac take
      bits 0, 1, 2 and 4 of the byte at `sp`; cy is always cleared; `sp`
      rises by two and nothing else changes. */
  lemma PopPswSpec(start: u16, st: State)
    requires start + 1 <= 0x1_0000 && st.sp <= 0xFFFE
    ensures OpBytes(0xf1) == 1
    ensures var r := ExecutePop(0xf1, start, st);
      var psw := st.mem[st.sp];
      && r.a == st.mem[st.sp + 1]
      && r.flags.z == BitAt(psw, 0) && r.flags.s == BitAt(psw, 1)
      && r.flags.p == BitAt(psw, 2) && r.flags.ac == BitAt(psw, 4)
      && r.flags.cy == 0
      && r == st.(a := r.a, flags := r.flags, sp := Wrap16(st.sp + 2))
  {
  }

  /** PUSH B, D or H followed by the matching POP gives back the pair and the
      stack pointer; only the two stack bytes differ. */
  lemma PushThenPop(op: byte, start: u16, start': u16, st: State)
    requires op == 0xc5 || op == 0xd5 || op == 0xe5
    requires start + 1 <= 0x1_0000 && start' + 1 <= 0x1_0000 && st.sp >= 2
    ensures var mid := ExecutePush(op, start, st);
      ExecutePop(op - 4, start', mid) == st.(mem := mid.mem)
  {
  }

  /** JNZ goes to the operand address exactly when z is clear, and to the
      next instruction, three bytes on, when it is set; JMP always goes. */
  lemma JumpSpec(op: byte, start: u16, st: State)
    requires Jump(op) && start + OpBytes(op) <= 0x1_0000
    requires st.pc == Wrap16(start + 1)
    ensures var r := ExecuteJump(op, start, st);
      && (op == 0xc3 || st.flags.z == 0 ==> r.pc == Operand16(st, start))
      && (op == 0xc2 && st.flags.z == 1 ==> r.pc == Wrap16(start + OpBytes(op)))
      && r == st.(pc := r.pc)
  {
    Wrap16Step(start, 2);
  }

  /** CALL saves the address of the next instruction below `sp`; a RET right
      after it comes back there with `sp` restored; only the two stack bytes
      differ. */
  lemma CallThenReturn(start: u16, start': u16, st: State)
    requires start + 3 <= 0x1_0000 && start' + 1 <= 0x1_0000 && st.sp >= 2
    requires st.pc == Wrap16(start + 1)
    ensures var mid := ExecuteCallReturn(0xcd, start, st);
      && mid.sp == st.sp - 2
      && Word(mid.mem[mid.sp + 1], mid.mem[mid.sp]) == Wrap16(start + OpBytes(0xcd))
      && (forall i | 0 <= i < 0x1_0000 && i != mid.sp && i != mid.sp + 1 :: mid.mem[i] == st.mem[i])
      && ExecuteCallReturn(0xc9, start', mid) == st.(mem := mid.mem, pc := Wrap16(start + 3))
  {
    CallKeepsMemory(start, st);
    var ret := Wrap16(st.pc + 2);
    Wrap16Step(start, 2);
    assert Word(HighByte(ret), LowByte(ret)) == ret;
  }

  /** CALL writes the two bytes below `sp` and no other byte. */
  lemma CallKeepsMemory(start: u16, st: State)
    requires start + 3 <= 0x1_0000 && st.sp >= 2
    ensures var mid := ExecuteCallReturn(0xcd, start, st);
      forall i | 0 <= i < 0x1_0000 && i != mid.sp && i != mid.sp + 1 :: mid.mem[i] == st.mem[i]
  {
  }

  /** When the stack frame CALL writes does not overlap its own operand, it
      jumps to the operand address as fetched. */
  lemma CallTarget(start: u16, st: State)
    requires start + 3 <= 0x1_0000 && st.sp >= 2
    requires st.sp - 2 > start + 2 || st.sp <= start + 1
    ensures ExecuteCallReturn(0xcd, start, st).pc == Operand16(st, start)
  {
  }

  /** NOP changes nothing; OUT skips its port byte; EI sets the interrupt
      enable. */
  lemma ControlSpec(op: byte, start: u16, st: State)
    requires Control(op) && start + OpBytes(op) <= 0x1_0000
    requires st.pc == Wrap16(start + 1)
    ensures var r := ExecuteControl(op, start, st);
      && r.pc == Wrap16(start + OpBytes(op))
      && (op == 0xfb ==> r == st.(intEnable := 1))
      && (op != 0xfb ==> r == st.(pc := r.pc))
  {
    Wrap16Step(start, 1);
  }
}

=== FILE: decode.dfy ===
/** The opcode-to-length table of the disassembler (`opbytes`): how many
    bytes, the opcode included, each of the 256 opcodes occupies. The
    interpreter's program-counter advance is proved against it in CpuProps. */
module Decode {
  import opened Bits

  /** Opcodes the disassembler prints with a two-byte operand. */
  predicate HasTwoByteOperand(opcode: byte)
  {
    opcode in {
      0x01, 0x11, 0x21, 0x31,                    // LXI B, D, H, SP
      0x22, 0x2a, 0x32, 0x3a,                    // SHLD, LHLD, STA, LDA
      0xc2, 0xc3, 0xc4, 0xca, 0xcb, 0xcc, 0xcd,  // JNZ, JMP, CNZ, JZ, JMP, CZ, CALL
      0xd2, 0xd4, 0xda, 0xdc, 0xdd,              // JNC, CNC, JC, CC, CALL
      0xe2, 0xe4, 0xea, 0xec, 0xed,              // JPO, CPO, JPE, CPE, CALL
      0xf2, 0xf4, 0xfa, 0xfc, 0xfd               // JP, CP, JM, CM, CALL
    }
  }

  /** Opcodes the disassembler prints with a one-byte operand. */
  predicate HasOneByteOperand(opcode: byte)
  {
    opcode in {
      0x06, 0x0e, 0x16, 0x1e, 0x26, 0x2e, 0x36, 0x3e,  // MVI B, C, D, E, H, L, M, A
      0xc6, 0xce, 0xd3, 0xd6, 0xdb, 0xde,              // ADI, ACI, OUT, SUI, IN, SBI
      0xe6, 0xee, 0xf6, 0xfe                           // ANI, XRI, ORI, CPI
    }
  }

  /** Instruction length from the 8080 encoding rules (Intel 8080 Microcomputer
      Systems User's Manual, chapter 4): bits 7-6 pick the instruction group,
      bits 2-0 (and for a few groups bits 5-3) the addressing mode. An
      independent reference for the table above. */
  function EncodedLength(opcode: byte): (n: nat)
  {
    var group, low := opcode / 0x40, opcode % 8;
    if group == 0 then
      if low == 6 then 2                              // MVI r,data
      else if opcode % 16 == 1 then 3                 // LXI rp,data16
      else if low == 2 && opcode >= 0x20 then 3       // SHLD, LHLD, STA, LDA addr
      else 1
    else if group == 3 then
      if low == 2 || low == 4 then 3                  // Jcond addr, Ccond addr
      else if low == 6 then 2                         // ALU immediate
      else if opcode == 0xc3 || opcode == 0xcb then 3 // JMP addr
      else if opcode == 0xd3 || opcode == 0xdb then 2 // OUT port, IN port
      else if low == 5 && (opcode / 8) % 2 == 1 then 3 // CALL addr
      else 1
    else 1                                            // MOV, HLT, register ALU
  }

  /** `opbytes` for one opcode: 1, 2 or 3, agreeing with the encoding rules. */
  function OpBytes(opcode: byte): (n: nat)
    ensures 1 <= n <= 3
    ensures n == EncodedLength(opcode)
  {
    if HasTwoByteOperand(opcode) then 3
    else if HasOneByteOperand(opcode) then 2
    else 1
  }
}

=== FILE: emulator.dfy ===
/** The `Emulator8080` class of emulator8080.h: the interpreter of main.cpp
    wrapped in a class that owns its processor state. Its private helpers
    `Parity` and `LoadFileIntoMemoryAt` are the same code as the free
    functions of main.cpp; the class delegates to the single model of each in
    ParityFlag and Machine. */
module Emulator {
  import opened Bits
  import ParityFlag
  import Cpu
  import Machine

  /** Where `Initialize` loads the four ROM images. */
  const RomH: nat := 0
  const RomG: nat := 0x800
  const RomF: nat := 0x1000
  const RomE: nat := 0x1800

  class Emulator8080 {
    /** `State8080* state`: no state until `InitializeProcessorState` runs. */
    var state: Machine.State8080?

    constructor ()
      ensures state == null
    {
      state := null;
    }

    ghost predicate Ready()
      reads this, state
    {
      state != null && state.Valid()
    }

    /** The class's own `Parity`, the same loop as the free function: it
        returns the same bit on every input. */
    method Parity(x: int, size: int) returns (r: int)
      requires 0 <= size < 31
      ensures r == 0 || r == 1
      ensures r == ParityFlag.ParityOf(x, size)
    {
      r := ParityFlag.Parity(x, size);
    }

    /** `InitializeProcessorState`: a fresh, zeroed record with a fresh 64 KiB
        buffer whose contents are not specified. */
    method InitializeProcessorState()
      modifies this
      ensures Ready() && fresh(state) && fresh(state.memory)
      ensures state.a == 0 && state.b == 0 && state.c == 0 && state.d == 0
      ensures state.e == 0 && state.h == 0 && state.l == 0
      ensures state.sp == 0 && state.pc == 0 && state.intEnable == 0
      ensures state.flags == Cpu.Flags(0, 0, 0, 0, 0)
    {
      state := new Machine.State8080();
    }

    /** `Initialize`: a fresh, zeroed state, then the four ROM images (their
        bytes given as parameters) loaded at 0, 0x800, 0x1000 and 0x1800 in
        that order, each over whatever the one before wrote past its slot. An
        image that fits its own 2 KiB slot is intact afterwards; the last one
        always is. */
    method Initialize(h: seq<byte>, g: seq<byte>, f: seq<byte>, e: seq<byte>)
      requires RomH + |h| <= 0x1_0000 && RomG + |g| <= 0x1_0000
      requires RomF + |f| <= 0x1_0000 && RomE + |e| <= 0x1_0000
      modifies this
      ensures Ready() && fresh(state) && fresh(state.memory)
      ensures state.a == 0 && state.b == 0 && state.c == 0 && state.d == 0
      ensures state.e == 0 && state.h == 0 && state.l == 0
      ensures state.sp == 0 && state.pc == 0 && state.intEnable == 0
      ensures state.flags == Cpu.Flags(0, 0, 0, 0, 0)
      ensures state.memory[RomE..RomE + |e|] == e
      ensures |f| <= 0x800 ==> state.memory[RomF..RomF + |f|] == f
      ensures |g| <= 0x800 ==> state.memory[RomG..RomG + |g|] == g
      ensures |h| <= 0x800 ==> state.memory[RomH..RomH + |h|] == h
    {
      InitializeProcessorState();
      var st := state;
      Machine.LoadFileIntoMemoryAt(st, h, RomH);
      ghost var m1 := st.memory[..];
      Machine.LoadFileIntoMemoryAt(st, g, RomG);
      ghost var m2 := st.memory[..];
      Machine.LoadFileIntoMemoryAt(st, f, RomF);
      ghost var m3 := st.memory[..];
      Machine.LoadFileIntoMemoryAt(st, e, RomE);
      ghost var m4 := st.memory[..];
      if |f| <= 0x800 {
        SliceOfPrefix(m3, m4, RomE, RomF, RomF + |f|);
      }
      if |g| <= 0x800 {
        SliceOfPrefix(m2, m3, RomF, RomG, RomG + |g|);
        SliceOfPrefix(m3, m4, RomE, RomG, RomG + |g|);
      }
      if |h| <= 0x800 {
        SliceOfPrefix(m1, m2, RomG, RomH, RomH + |h|);
        SliceOfPrefix(m2, m3, RomF, RomH, RomH + |h|);
        SliceOfPrefix(m3, m4, RomE, RomH, RomH + |h|);
      }
    }

    /** `AdvanceEmulationStep`: one call of `Emulate8080Operation` on the
        owned state. */
    method AdvanceEmulationStep() returns (outcome: Cpu.Outcome)
      requires Ready() && Cpu.InBuffer(state.Snapshot())
      modifies state, state.memory
      ensures Ready()
      ensures (outcome, state.Snapshot()) == Cpu.Step(old(state.Snapshot()))
    {
      outcome := Machine.Emulate8080Operation(state);
    }
  }

  /** A slice inside an unchanged prefix is unchanged. */
  lemma SliceOfPrefix<T>(before: seq<T>, after: seq<T>, k: nat, i: nat, j: nat)
    requires i <= j <= k <= |before| && k <= |after|
    requires after[..k] == before[..k]
    ensures after[i..j] == before[i..j]
  {
    forall n | i <= n < j
      ensures after[n] == before[n]
    {
      assert after[..k][n] == before[..k][n];
    }
  }
}

=== FILE: findings.dfy ===
/** Two places where the interpreter does not do what the 8080 does, each
    shown on the model as written and then corrected, with the intended
    property proved about the correction. The interpreter step in Cpu keeps
    the behaviour as written. */
module Findings {
  import opened Bits
  import opened ParityFlag
  import opened Decode
  import opened Cpu

  // POP PSW: the carry test compares `psw & 0x08` with 0x05.

  /** As written, PUSH PSW followed by POP PSW gives back A, `sp` and every
      flag except the carry, which comes back clear. */
  lemma PushPopPswAsWritten(start: u16, start': u16, st: State)
    requires start + 1 <= 0x1_0000 && start' + 1 <= 0x1_0000 && st.sp >= 2
    ensures var mid := ExecutePush(0xf5, start, st);
      ExecutePop(0xf1, start', mid) == st.(mem := mid.mem, flags := st.flags.(cy := 0))
  {
    var mid := ExecutePush(0xf5, start, st);
    assert mid.mem[mid.sp] == PackPsw(st.flags) && mid.mem[mid.sp + 1] == st.a;
  }

  /** So a set carry is lost: any state with cy = 1 shows it. */
  lemma PushPopPswLosesCarry(start: u16, start': u16, st: State)
    requires start + 1 <= 0x1_0000 && start' + 1 <= 0x1_0000 && st.sp >= 2
    requires st.flags.cy == 1
    ensures ExecutePop(0xf1, start', ExecutePush(0xf5, start, st)).flags.cy == 0
    ensures ExecutePop(0xf1, start', ExecutePush(0xf5, start, st)).flags != st.flags
  {
    PushPopPswAsWritten(start, start', st);
  }

  /** The flags POP PSW was meant to unpack: bit 3 of the byte is the carry. */
  function UnpackPswFixed(psw: byte): (g: Flags)
    ensures g.z == BitAt(psw, 0) && g.s == BitAt(psw, 1) && g.p == BitAt(psw, 2)
    ensures g.cy == BitAt(psw, 3) && g.ac == BitAt(psw, 4)
  {
    assert Pow2(1) == 2 && Pow2(2) == 4 && Pow2(3) == 8 && Pow2(4) == 16;
    Flags(z := BitOf(0x01 == MaskBit(psw, 0)),
          s := BitOf(0x02 == MaskBit(psw, 1)),
          p := BitOf(0x04 == MaskBit(psw, 2)),
          cy := BitOf(0x08 == MaskBit(psw, 3)),
          ac := BitOf(0x10 == MaskBit(psw, 4)))
  }

  /** Unpacking the byte PUSH PSW packs gives every flag back. */
  lemma UnpackPackPsw(f: Flags)
    ensures UnpackPswFixed(PackPsw(f)) == f
  {
  }

  /** POP PSW with the carry test corrected. */
  function PopPswFixed(st: State): State
    requires st.sp <= 0xFFFE
  {
    st.(a := st.mem[st.sp + 1], flags := UnpackPswFixed(st.mem[st.sp]), sp := Wrap16(st.sp + 2))
  }

  /** Corrected, PUSH PSW followed by POP PSW gives back A, every flag and
      the stack pointer. */
  lemma PushPopPswFixed(start: u16, st: State)
    requires start + 1 <= 0x1_0000 && st.sp >= 2
    ensures var mid := ExecutePush(0xf5, start, st);
      PopPswFixed(mid) == st.(mem := mid.mem)
  {
    var mid := ExecutePush(0xf5, start, st);
    assert mid.mem[mid.sp] == PackPsw(st.flags) && mid.mem[mid.sp + 1] == st.a;
    UnpackPackPsw(st.flags);
  }

  // ADD B, ADD C, ADD M: the parity update is commented out.

  /** As written, ADD leaves the parity flag stale: with A = B = 0 and p
      clear, ADD B gives A = 0, whose parity is even, yet p stays clear. */
  lemma AddLeavesParityStale(start: u16, st: State)
    requires start + 1 <= 0x1_0000
    requires st.a == 0 && st.b == 0 && st.flags.p == 0
    ensures var r := ExecuteAddRegister(0x80, start, st);
      r.a == 0 && r.flags.p == 0 && ParityOf(r.a, 8) == 1
  {
    ParityOfZero(8);
  }

  /** ADD with the parity update restored, as ADI does it. */
  function AddToAWithParity(st: State, v: byte): State
  {
    var r := AddToA(st, v);
    r.(flags := r.flags.(p := ParityOf(r.a, 8)))
  }

  /** Corrected, ADD sets z, s, p and cy from the sum exactly as ADI does
      with its operand byte, and A and the carry hold the 9-bit sum. */
  lemma AddWithParityMatchesAdi(start: u16, st: State)
    requires start + 2 <= 0x1_0000
    ensures var r := AddToAWithParity(st, st.mem[start + 1]);
      && r.a + 0x100 * r.flags.cy == st.a + st.mem[start + 1]
      && r.flags.p == ParityOf(r.a, 8)
      && ExecuteAddImmediate(0xc6, start, st) == r.(pc := Wrap16(st.pc + 1))
  {
    AddWithParitySum(st, st.mem[start + 1]);
    AdiIsAddWithParity(start, st);
  }

  /** ADI is the corrected ADD applied to the operand byte, then the skip
      over that byte. */
  lemma AdiIsAddWithParity(start: u16, st: State)
    requires start + 2 <= 0x1_0000
    ensures ExecuteAddImmediate(0xc6, start, st)
      == AddToAWithParity(st, st.mem[start + 1]).(pc := Wrap16(st.pc + 1))
  {
    var adi := ExecuteAddImmediate(0xc6, start, st);
    var r := AddToAWithParity(st, st.mem[start + 1]);
    assert adi.flags == r.flags;
  }

  /** The corrected ADD keeps the 9-bit sum in A and the carry. */
  lemma AddWithParitySum(st: State, v: byte)
    ensures var r := AddToAWithParity(st, v);
      && r.a + 0x100 * r.flags.cy == st.a + v
      && r.flags.p == ParityOf(r.a, 8)
  {
    SplitSum9(st.a + v);
  }
}

=== FILE: machine.dfy ===
/** The interpreter as the source runs it: a `State8080` record whose fields
    and 64 KiB memory buffer `Emulate8080Operation` updates in place, one
    instruction per call. The step is proved to produce exactly the state
    that `Cpu.Step` describes. */
module Machine {
  import opened Bits
  import ParityFlag
  import Decode
  import Cpu

  class State8080 {
    var a: byte
    var b: byte
    var c: byte
    var d: byte
    var e: byte
    var h: byte
    var l: byte
    var sp: u16
    var pc: u16
    /** The buffer allocated once by `InitProcessor`; the pointer never changes. */
    const memory: array<byte>
    var flags: Cpu.Flags
    var intEnable: byte

    ghost predicate Valid()
      reads this
    {
      memory.Length == 0x1_0000
    }

    /** The architectural state as a value. */
    function Snapshot(): Cpu.State
      reads this, memory
      requires Valid()
    {
      Cpu.State(a, b, c, d, e, h, l, sp, pc, memory[..], flags, intEnable)
    }

    /** `InitProcessor`: a value-initialised record (every register, flag
        and pointer zero) with a fresh 64 KiB buffer. The buffer's contents
        are not specified, as `malloc` leaves them uninitialised. */
    constructor ()
      ensures Valid() && fresh(memory)
      ensures a == 0 && b == 0 && c == 0 && d == 0 && e == 0 && h == 0 && l == 0
      ensures sp == 0 && pc == 0 && intEnable == 0
      ensures flags == Cpu.Flags(0, 0, 0, 0, 0)
    {
      a, b, c, d, e, h, l := 0, 0, 0, 0, 0, 0, 0;
      sp, pc := 0, 0;
      flags := Cpu.Flags(0, 0, 0, 0, 0);
      intEnable := 0;
      memory := new byte[0x1_0000];
    }
  }

  /** `LoadFileIntoMemoryAt` with the file's bytes given as a parameter:
      copies `data` into the buffer starting at `offset`. The source does not
      check the size, so the copy must fit the buffer. */
  method LoadFileIntoMemoryAt(state: State8080, data: seq<byte>, offset: nat)
    requires state.Valid() && offset + |data| <= 0x1_0000
    modifies state.memory
    ensures state.memory[offset..offset + |data|] == data
    ensures state.memory[..offset] == old(state.memory[..offset])
    ensures state.memory[offset + |data|..] == old(state.memory[offset + |data|..])
  {
    var i := 0;
    while i < |data|
      invariant 0 <= i <= |data|
      invariant state.memory[offset..offset + i] == data[..i]
      invariant state.memory[..offset] == old(state.memory[..offset])
      invariant state.memory[offset + i..] == old(state.memory[offset + i..])
    {
      state.memory[offset + i] := data[i];
      i := i + 1;
    }
  }

  /** The z, s and p flags from an 8-bit result, as the DCR, ANA, XRA, ANI,
      ADI and CPI cases write them. */
  method SetZSP(state: State8080, res: byte)
    modifies state
    ensures state.flags == Cpu.SetZSP(old(state.flags), res)
    ensures state.a == old(state.a) && state.b == old(state.b) && state.c == old(state.c)
    ensures state.d == old(state.d) && state.e == old(state.e)
    ensures state.h == old(state.h) && state.l == old(state.l)
    ensures state.sp == old(state.sp) && state.pc == old(state.pc)
    ensures state.intEnable == old(state.intEnable)
  {
    var p := ParityFlag.Parity(res, 8);
    state.flags := state.flags.(z := BitOf(res == 0), s := Cpu.SignBit(res), p := p);
  }

  /** `Emulate8080Operation`: fetch the opcode at `pc`, advance `pc` past
      it, run its case. An opcode without a case of its own reaches
      `NotImplementedInstruction`, here the `Faulted` outcome. The cases are
      grouped by instruction family into the methods below. */
  method Emulate8080Operation(state: State8080) returns (outcome: Cpu.Outcome)
    requires state.Valid() && Cpu.InBuffer(state.Snapshot())
    modifies state, state.memory
    ensures state.Valid()
    ensures (outcome, state.Snapshot()) == Cpu.Step(old(state.Snapshot()))
  {
    var start := state.pc;
    var op := state.memory[start];
    state.pc := Wrap16(state.pc + 1);
    if Cpu.LoadPairImmediate(op) {
      ExecuteLoadPairImmediate(state, op, start);
      outcome := Cpu.Running;
    } else if Cpu.MoveImmediate(op) {
      ExecuteMoveImmediate(state, op, start);
      outcome := Cpu.Running;
    } else if Cpu.MoveRegister(op) {
      ExecuteMoveRegister(state, op, start);
      outcome := Cpu.Running;
    } else if Cpu.MoveMemory(op) {
      ExecuteMoveMemory(state, op, start);
      outcome := Cpu.Running;
    } else if Cpu.LoadStore(op) {
      ExecuteLoadStore(state, op, start);
      outcome := Cpu.Running;
    } else if Cpu.DecrementIncrement(op) {
      ExecuteDecrementIncrement(state, op, start);
      outcome := Cpu.Running;
    } else if Cpu.DoubleAdd(op) {
      ExecuteDoubleAdd(state, op, start);
      outcome := Cpu.Running;
    } else if Cpu.AddRegister(op) {
      ExecuteAddRegister(state, op, start);
      outcome := Cpu.Running;
    } else if Cpu.AddImmediate(op) {
      Adi(state, start);
      outcome := Cpu.Running;
    } else if Cpu.Logical(op) {
      ExecuteLogical(state, op, start);
      outcome := Cpu.Running;
    } else if Cpu.LogicalImmediate(op) {
      ExecuteLogicalImmediate(state, op, start);
      outcome := Cpu.Running;
    } else if Cpu.PushOp(op) {
      ExecutePush(state, op, start);
      outcome := Cpu.Running;
    } else if Cpu.PopOp(op) {
      ExecutePop(state, op, start);
      outcome := Cpu.Running;
    } else if Cpu.Jump(op) {
      ExecuteJump(state, op, start);
      outcome := Cpu.Running;
    } else if Cpu.CallReturn(op) {
      ExecuteCallReturn(state, op, start);
      outcome := Cpu.Running;
    } else if Cpu.Control(op) {
      ExecuteControl(state, op, start);
      outcome := Cpu.Running;
    } else {
      outcome := Cpu.Faulted(op, start);  // NotImplementedInstruction
    }
  }

  /** The driver loop of `InitialiseWindow` for `n` iterations, the window
      events left out: step until `n` steps are done or a step faults, and
      stop before a step whose accesses would leave the buffer. */
  method Run(state: State8080, n: nat) returns (outcome: Cpu.Outcome)
    requires state.Valid()
    modifies state, state.memory
    ensures state.Valid()
    ensures (outcome, state.Snapshot()) == Cpu.Run(old(state.Snapshot()), n)
  {
    ghost var goal := Cpu.Run(state.Snapshot(), n);
    outcome := Cpu.Running;
    var i := 0;
    while i < n && outcome.Running?
      invariant 0 <= i <= n && state.Valid()
      invariant outcome.Running? ==> goal == Cpu.Run(state.Snapshot(), n - i)
      invariant !outcome.Running? ==> goal == (outcome, state.Snapshot())
    {
      outcome := RunIteration(state, n - i);
      i := i + 1;
    }
  }

  /** One iteration of the driver loop with `k` iterations left. */
  method RunIteration(state: State8080, k: nat) returns (outcome: Cpu.Outcome)
    requires state.Valid() && k > 0
    modifies state, state.memory
    ensures state.Valid()
    ensures outcome.Running? ==> Cpu.Run(old(state.Snapshot()), k) == Cpu.Run(state.Snapshot(), k - 1)
    ensures !outcome.Running? ==> Cpu.Run(old(state.Snapshot()), k) == (outcome, state.Snapshot())
  {
    if Cpu.InBuffer(state.Snapshot()) {
      outcome := Emulate8080Operation(state);
    } else {
      outcome := Cpu.OutOfBuffer;
    }
  }

  // One method per instruction group, dispatching to one method per opcode.
  // In each, `pc` has already been advanced past the opcode, which sat at
  // `start`; the operand bytes follow it.

  /** LXI: load a register pair from the two operand bytes. */
  method ExecuteLoadPairImmediate(state: State8080, op: byte, start: u16)
    requires state.Valid() && Cpu.LoadPairImmediate(op)
    requires start + Decode.OpBytes(op) <= 0x1_0000
    modifies state
    ensures state.Valid()
    ensures state.Snapshot() == Cpu.ExecuteLoadPairImmediate(op, start, old(state.Snapshot()))
  {
    match op
    case 0x01 => LxiB(state, start);
    case 0x11 => LxiD(state, start);
    case 0x21 => LxiH(state, start);
    case 0x31 => LxiSp(state, start);
  }

  /** MVI: load a register or the byte at HL from the operand byte. */
  method ExecuteMoveImmediate(state: State8080, op: byte, start: u16)
    requires state.Valid() && Cpu.MoveImmediate(op)
    requires start + Decode.OpBytes(op) <= 0x1_0000
    modifies state, state.memory
    ensures state.Valid()
    ensures state.Snapshot() == Cpu.ExecuteMoveImmediate(op, start, old(state.Snapshot()))
  {
    match op
    case 0x06 => MviB(state, start);
    case 0x0e => MviC(state, start);
    case 0x26 => MviH(state, start);
    case 0x36 => MviM(state, start);
    case 0x3e => MviA(state, start);
  }

  /** MOV between registers. */
  method ExecuteMoveRegister(state: State8080, op: byte, start: u16)
    requires state.Valid() && Cpu.MoveRegister(op)
    requires start + Decode.OpBytes(op) <= 0x1_0000
    modifies state
    ensures state.Valid()
    ensures state.Snapshot() == Cpu.ExecuteMoveRegister(op, start, old(state.Snapshot()))
  {
    match op
    case 0x41 => MovBC(state, start);
    case 0x42 => MovBD(state, start);
    case 0x43 => MovBE(state, start);
    case 0x6f => MovLA(state, start);
    case 0x7a => MovAD(state, start);
    case 0x7b => MovAE(state, start);
    case 0x7c => MovAH(state, start);
  }

  /** MOV to or from the byte at HL. */
  method ExecuteMoveMemory(state: State8080, op: byte, start: u16)
    requires state.Valid() && Cpu.MoveMemory(op)
    requires start + Decode.OpBytes(op) <= 0x1_0000
    modifies state, state.memory
    ensures state.Valid()
    ensures state.Snapshot() == Cpu.ExecuteMoveMemory(op, start, old(state.Snapshot()))
  {
    match op
    case 0x56 => MovDM(state, start);
    case 0x5e => MovEM(state, start);
    case 0x66 => MovHM(state, start);
    case 0x77 => MovMA(state, start);
    case 0x7e => MovAM(state, start);
  }

  /** LDAX D, STA, LDA and XCHG. */
  method ExecuteLoadStore(state: State8080, op: byte, start: u16)
    requires state.Valid() && Cpu.LoadStore(op)
    requires start + Decode.OpBytes(op) <= 0x1_0000
    modifies state, state.memory
    ensures state.Valid()
    ensures state.Snapshot() == Cpu.ExecuteLoadStore(op, start, old(state.Snapshot()))
  {
    match op
    case 0x1a => LdaxD(state, start);
    case 0x32 => Sta(state, start);
    case 0x3a => Lda(state, start);
    case 0xeb => Xchg(state, start);
  }

  /** DCR B, DCR C, INX D and INX H. */
  method ExecuteDecrementIncrement(state: State8080, op: byte, start: u16)
    requires state.Valid() && Cpu.DecrementIncrement(op)
    requires start + Decode.OpBytes(op) <= 0x1_0000
    modifies state
    ensures state.Valid()
    ensures state.Snapshot() == Cpu.ExecuteDecrementIncrement(op, start, old(state.Snapshot()))
  {
    match op
    case 0x05 => DcrB(state, start);
    case 0x0d => DcrC(state, start);
    case 0x13 => InxD(state, start);
    case 0x23 => InxH(state, start);
  }

  /** DAD B, DAD D and DAD H: add a pair into HL. */
  method ExecuteDoubleAdd(state: State8080, op: byte, start: u16)
    requires state.Valid() && Cpu.DoubleAdd(op)
    requires start + Decode.OpBytes(op) <= 0x1_0000
    modifies state
    ensures state.Valid()
    ensures state.Snapshot() == Cpu.ExecuteDoubleAdd(op, start, old(state.Snapshot()))
  {
    match op
    case 0x09 => DadB(state, start);
    case 0x19 => DadD(state, start);
    case 0x29 => DadH(state, start);
  }

  /** ADD B, ADD C and ADD M. */
  method ExecuteAddRegister(state: State8080, op: byte, start: u16)
    requires state.Valid() && Cpu.AddRegister(op)
    requires start + Decode.OpBytes(op) <= 0x1_0000
    modifies state
    ensures state.Valid()
    ensures state.Snapshot() == Cpu.ExecuteAddRegister(op, start, old(state.Snapshot()))
  {
    match op
    case 0x80 => AddB(state, start);
    case 0x81 => AddC(state, start);
    case 0x86 => AddM(state, start);
  }

  /** RRC, CMA, ANA A and XRA A. */
  method ExecuteLogical(state: State8080, op: byte, start: u16)
    requires state.Valid() && Cpu.Logical(op)
    requires start + Decode.OpBytes(op) <= 0x1_0000
    modifies state
    ensures state.Valid()
    ensures state.Snapshot() == Cpu.ExecuteLogical(op, start, old(state.Snapshot()))
  {
    match op
    case 0x0f => Rrc(state, start);
    case 0x2f => Cma(state, start);
    case 0xa7 => AnaA(state, start);
    case 0xaf => XraA(state, start);
  }

  /** ANI and CPI: AND with, or compare with, the operand byte. */
  method ExecuteLogicalImmediate(state: State8080, op: byte, start: u16)
    requires state.Valid() && Cpu.LogicalImmediate(op)
    requires start + Decode.OpBytes(op) <= 0x1_0000
    modifies state
    ensures state.Valid()
    ensures state.Snapshot() == Cpu.ExecuteLogicalImmediate(op, start, old(state.Snapshot()))
  {
    match op
    case 0xe6 => Ani(state, start);
    case 0xfe => Cpi(state, start);
  }

  /** PUSH B, D, H and PSW. */
  method ExecutePush(state: State8080, op: byte, start: u16)
    requires state.Valid() && Cpu.PushOp(op)
    requires start + Decode.OpBytes(op) <= 0x1_0000
    requires Cpu.Pushes(op) ==> state.sp >= 2
    requires Cpu.Pops(op) ==> state.sp <= 0xFFFE
    modifies state, state.memory
    ensures state.Valid()
    ensures state.Snapshot() == Cpu.ExecutePush(op, start, old(state.Snapshot()))
  {
    match op
    case 0xc5 => PushB(state, start);
    case 0xd5 => PushD(state, start);
    case 0xe5 => PushH(state, start);
    case 0xf5 => PushPsw(state, start);
  }

  /** POP B, D, H and PSW. */
  method ExecutePop(state: State8080, op: byte, start: u16)
    requires state.Valid() && Cpu.PopOp(op)
    requires start + Decode.OpBytes(op) <= 0x1_0000
    requires Cpu.Pushes(op) ==> state.sp >= 2
    requires Cpu.Pops(op) ==> state.sp <= 0xFFFE
    modifies state
    ensures state.Valid()
    ensures state.Snapshot() == Cpu.ExecutePop(op, start, old(state.Snapshot()))
  {
    match op
    case 0xc1 => PopB(state, start);
    case 0xd1 => PopD(state, start);
    case 0xe1 => PopH(state, start);
    case 0xf1 => PopPsw(state, start);
  }

  /** JNZ and JMP. */
  method ExecuteJump(state: State8080, op: byte, start: u16)
    requires state.Valid() && Cpu.Jump(op)
    requires start + Decode.OpBytes(op) <= 0x1_0000
    modifies state
    ensures state.Valid()
    ensures state.Snapshot() == Cpu.ExecuteJump(op, start, old(state.Snapshot()))
  {
    match op
    case 0xc2 => Jnz(state, start);
    case 0xc3 => Jmp(state, start);
  }

  /** CALL and RET. */
  method ExecuteCallReturn(state: State8080, op: byte, start: u16)
    requires state.Valid() && Cpu.CallReturn(op)
    requires start + Decode.OpBytes(op) <= 0x1_0000
    requires Cpu.Pushes(op) ==> state.sp >= 2
    requires Cpu.Pops(op) ==> state.sp <= 0xFFFE
    modifies state, state.memory
    ensures state.Valid()
    ensures state.Snapshot() == Cpu.ExecuteCallReturn(op, start, old(state.Snapshot()))
  {
    match op
    case 0xcd => Call(state, start);
    case 0xc9 => Ret(state, start);
  }

  /** NOP, OUT and EI. */
  method ExecuteControl(state: State8080, op: byte, start: u16)
    requires state.Valid() && Cpu.Control(op)
    requires start + Decode.OpBytes(op) <= 0x1_0000
    modifies state
    ensures state.Valid()
    ensures state.Snapshot() == Cpu.ExecuteControl(op, start, old(state.Snapshot()))
  {
    match op
    case 0x00 => Nop(state, start);
    case 0xd3 => Out(state, start);
    case 0xfb => Ei(state, start);
  }

  /** LXI B,word */
  method LxiB(state: State8080, start: u16)
    requires state.Valid() && start + 3 <= 0x1_0000
    modifies state
    ensures state.Valid()
    ensures state.Snapshot() == Cpu.ExecuteLoadPairImmediate(0x01, start, old(state.Snapshot()))
  {
    var mem := state.memory;
    state.c := mem[start + 1];
    state.b := mem[start + 2];
    state.pc := Wrap16(state.pc + 2);
  }

  /** LXI D,word */
  method LxiD(state: State8080, start: u16)
    requires state.Valid() && start + 3 <= 0x1_0000
    modifies state
    ensures state.Valid()
    ensures state.Snapshot() == Cpu.ExecuteLoadPairImmediate(0x11, start, old(state.Snapshot()))
  {
    var mem := state.memory;
    state.e := mem[start + 1];
    state.d := mem[start + 2];
    state.pc := Wrap16(state.pc + 2);
  }

  /** LXI H,word */
  method LxiH(state: State8080, start: u16)
    requires state.Valid() && start + 3 <= 0x1_0000
    modifies state
    ensures state.Valid()
    ensures state.Snapshot() == Cpu.ExecuteLoadPairImmediate(0x21, start, old(state.Snapshot()))
  {
    var mem := state.memory;
    state.l := mem[start + 1];
    state.h := mem[start + 2];
    state.pc := Wrap16(state.pc + 2);
  }

  /** LXI SP,word */
  method LxiSp(state: State8080, start: u16)
    requires state.Valid() && start + 3 <= 0x1_0000
    modifies state
    ensures state.Valid()
    ensures state.Snapshot() == Cpu.ExecuteLoadPairImmediate(0x31, start, old(state.Snapshot()))
  {
    var mem := state.memory;
    state.sp := Word(mem[start + 2], mem[start + 1]);
    state.pc := Wrap16(state.pc + 2);
  }

  /** MVI B,byte */
  method MviB(state: State8080, start: u16)
    requires state.Valid() && start + 2 <= 0x1_0000
    modifies state
    ensures state.Valid()
    ensures state.Snapshot() == Cpu.ExecuteMoveImmediate(0x06, start, old(state.Snapshot()))
  {
    var mem := state.memory;
    state.b := mem[start + 1];
    state.pc := Wrap16(state.pc + 1);
  }

  /** MVI C,byte */
  method MviC(state: State8080, start: u16)
    requires state.Valid() && start + 2 <= 0x1_0000
    modifies state
    ensures state.Valid()
    ensures state.Snapshot() == Cpu.ExecuteMoveImmediate(0x0e, start, old(state.Snapshot()))
  {
    var mem := state.memory;
    state.c := mem[start + 1];
    state.pc := Wrap16(state.pc + 1);
  }

  /** MVI H,byte */
  method MviH(state: State8080, start: u16)
    requires state.Valid() && start + 2 <= 0x1_0000
    modifies state
    ensures state.Valid()
    ensures state.Snapshot() == Cpu.ExecuteMoveImmediate(0x26, start, old(state.Snapshot()))
  {
    var mem := state.memory;
    state.h := mem[start + 1];
    state.pc := Wrap16(state.pc + 1);
  }

  /** MVI M,byte */
  method MviM(state: State8080, start: u16)
    requires state.Valid() && start + 2 <= 0x1_0000
    modifies state, state.memory
    ensures state.Valid()
    ensures state.Snapshot() == Cpu.ExecuteMoveImmediate(0x36, start, old(state.Snapshot()))
  {
    var mem := state.memory;
    var offset := Word(state.h, state.l);
    mem[offset] := mem[start + 1];
    state.pc := Wrap16(state.pc + 1);
  }

  /** MVI A,byte */
  method MviA(state: State8080, start: u16)
    requires state.Valid() && start + 2 <= 0x1_0000
    modifies state
    ensures state.Valid()
    ensures state.Snapshot() == Cpu.ExecuteMoveImmediate(0x3e, start, old(state.Snapshot()))
  {
    var mem := state.memory;
    state.a := mem[start + 1];
    state.pc := Wrap16(state.pc + 1);
  }

  /** MOV B,C */
  method MovBC(state: State8080, start: u16)
    requires state.Valid()
    modifies state
    ensures state.Valid()
    ensures state.Snapshot() == Cpu.ExecuteMoveRegister(0x41, start, old(state.Snapshot()))
  {
    state.b := state.c;
  }

  /** MOV B,D */
  method MovBD(state: State8080, start: u16)
    requires state.Valid()
    modifies state
    ensures state.Valid()
    ensures state.Snapshot() == Cpu.ExecuteMoveRegister(0x42, start, old(state.Snapshot()))
  {
    state.b := state.d;
  }

  /** MOV B,E */
  method MovBE(state: State8080, start: u16)
    requires state.Valid()
    modifies state
    ensures state.Valid()
    ensures state.Snapshot() == Cpu.ExecuteMoveRegister(0x43, start, old(state.Snapshot()))
  {
    state.b := state.e;
  }

  /** MOV L,A */
  method MovLA(state: State8080, start: u16)
    requires state.Valid()
    modifies state
    ensures state.Valid()
    ensures state.Snapshot() == Cpu.ExecuteMoveRegister(0x6f, start, old(state.Snapshot()))
  {
    state.l := state.a;
  }

  /** MOV A,D */
  method MovAD(state: State8080, start: u16)
    requires state.Valid()
    modifies state
    ensures state.Valid()
    ensures state.Snapshot() == Cpu.ExecuteMoveRegister(0x7a, start, old(state.Snapshot()))
  {
    state.a := state.d;
  }

  /** MOV A,E */
  method MovAE(state: State8080, start: u16)
    requires state.Valid()
    modifies state
    ensures state.Valid()
    ensures state.Snapshot() == Cpu.ExecuteMoveRegister(0x7b, start, old(state.Snapshot()))
  {
    state.a := state.e;
  }

  /** MOV A,H */
  method MovAH(state: State8080, start: u16)
    requires state.Valid()
    modifies state
    ensures state.Valid()
    ensures state.Snapshot() == Cpu.ExecuteMoveRegister(0x7c, start, old(state.Snapshot()))
  {
    state.a := state.h;
  }

  /** MOV D,M */
  method MovDM(state: State8080, start: u16)
    requires state.Valid()
    modifies state
    ensures state.Valid()
    ensures state.Snapshot() == Cpu.ExecuteMoveMemory(0x56, start, old(state.Snapshot()))
  {
    var mem := state.memory;
    state.d := mem[Word(state.h, state.l)];
  }

  /** MOV E,M */
  method MovEM(state: State8080, start: u16)
    requires state.Valid()
    modifies state
    ensures state.Valid()
    ensures state.Snapshot() == Cpu.ExecuteMoveMemory(0x5e, start, old(state.Snapshot()))
  {
    var mem := state.memory;
    state.e := mem[Word(state.h, state.l)];
  }

  /** MOV H,M */
  method MovHM(state: State8080, start: u16)
    requires state.Valid()
    modifies state
    ensures state.Valid()
    ensures state.Snapshot() == Cpu.ExecuteMoveMemory(0x66, start, old(state.Snapshot()))
  {
    var mem := state.memory;
    state.h := mem[Word(state.h, state.l)];
  }

  /** MOV M,A */
  method MovMA(state: State8080, start: u16)
    requires state.Valid()
    modifies state, state.memory
    ensures state.Valid()
    ensures state.Snapshot() == Cpu.ExecuteMoveMemory(0x77, start, old(state.Snapshot()))
  {
    var mem := state.memory;
    mem[Word(state.h, state.l)] := state.a;
  }

  /** MOV A,M */
  method MovAM(state: State8080, start: u16)
    requires state.Valid()
    modifies state
    ensures state.Valid()
    ensures state.Snapshot() == Cpu.ExecuteMoveMemory(0x7e, start, old(state.Snapshot()))
  {
    var mem := state.memory;
    state.a := mem[Word(state.h, state.l)];
  }

  /** LDAX D */
  method LdaxD(state: State8080, start: u16)
    requires state.Valid()
    modifies state
    ensures state.Valid()
    ensures state.Snapshot() == Cpu.ExecuteLoadStore(0x1a, start, old(state.Snapshot()))
  {
    var mem := state.memory;
    state.a := mem[Word(state.d, state.e)];
  }

  /** STA adr */
  method Sta(state: State8080, start: u16)
    requires state.Valid() && start + 3 <= 0x1_0000
    modifies state, state.memory
    ensures state.Valid()
    ensures state.Snapshot() == Cpu.ExecuteLoadStore(0x32, start, old(state.Snapshot()))
  {
    var mem := state.memory;
    var offset := Word(mem[start + 2], mem[start + 1]);
    mem[offset] := state.a;
    state.pc := Wrap16(state.pc + 2);
  }

  /** LDA adr */
  method Lda(state: State8080, start: u16)
    requires state.Valid() && start + 3 <= 0x1_0000
    modifies state
    ensures state.Valid()
    ensures state.Snapshot() == Cpu.ExecuteLoadStore(0x3a, start, old(state.Snapshot()))
  {
    var mem := state.memory;
    var offset := Word(mem[start + 2], mem[start + 1]);
    state.a := mem[offset];
    state.pc := Wrap16(state.pc + 2);
  }

  /** XCHG */
  method Xchg(state: State8080, start: u16)
    requires state.Valid()
    modifies state
    ensures state.Valid()
    ensures state.Snapshot() == Cpu.ExecuteLoadStore(0xeb, start, old(state.Snapshot()))
  {
    var save1 := state.d;
    var save2 := state.e;
    state.d := state.h;
    state.e := state.l;
    state.h := save1;
    state.l := save2;
  }

  /** DCR B */
  method DcrB(state: State8080, start: u16)
    requires state.Valid()
    modifies state
    ensures state.Valid()
    ensures state.Snapshot() == Cpu.ExecuteDecrementIncrement(0x05, start, old(state.Snapshot()))
  {
    var res := Wrap8(state.b - 1);
    SetZSP(state, res);
    state.b := res;
  }

  /** DCR C */
  method DcrC(state: State8080, start: u16)
    requires state.Valid()
    modifies state
    ensures state.Valid()
    ensures state.Snapshot() == Cpu.ExecuteDecrementIncrement(0x0d, start, old(state.Snapshot()))
  {
    var res := Wrap8(state.c - 1);
    SetZSP(state, res);
    state.c := res;
  }

  /** INX D */
  method InxD(state: State8080, start: u16)
    requires state.Valid()
    modifies state
    ensures state.Valid()
    ensures state.Snapshot() == Cpu.ExecuteDecrementIncrement(0x13, start, old(state.Snapshot()))
  {
    state.e := Wrap8(state.e + 1);
    if state.e == 0 {
      state.d := Wrap8(state.d + 1);
    }
  }

  /** INX H */
  method InxH(state: State8080, start: u16)
    requires state.Valid()
    modifies state
    ensures state.Valid()
    ensures state.Snapshot() == Cpu.ExecuteDecrementIncrement(0x23, start, old(state.Snapshot()))
  {
    state.l := Wrap8(state.l + 1);
    if state.l == 0 {
      state.h := Wrap8(state.h + 1);
    }
  }

  /** DAD B */
  method DadB(state: State8080, start: u16)
    requires state.Valid()
    modifies state
    ensures state.Valid()
    ensures state.Snapshot() == Cpu.ExecuteDoubleAdd(0x09, start, old(state.Snapshot()))
  {
    AddToHL(state, Word(state.b, state.c));
  }

  /** DAD D */
  method DadD(state: State8080, start: u16)
    requires state.Valid()
    modifies state
    ensures state.Valid()
    ensures state.Snapshot() == Cpu.ExecuteDoubleAdd(0x19, start, old(state.Snapshot()))
  {
    AddToHL(state, Word(state.d, state.e));
  }

  /** DAD H */
  method DadH(state: State8080, start: u16)
    requires state.Valid()
    modifies state
    ensures state.Valid()
    ensures state.Snapshot() == Cpu.ExecuteDoubleAdd(0x29, start, old(state.Snapshot()))
  {
    AddToHL(state, Word(state.h, state.l));
  }

  /** ADD B; parity is not updated */
  method AddB(state: State8080, start: u16)
    requires state.Valid()
    modifies state
    ensures state.Valid()
    ensures state.Snapshot() == Cpu.ExecuteAddRegister(0x80, start, old(state.Snapshot()))
  {
    var answer := state.a + state.b;
    state.flags := state.flags.(z := BitOf(answer % 0x100 == 0), s := Cpu.SignBit(answer),
                                cy := BitOf(answer > 0xFF));
    state.a := answer % 0x100;
  }

  /** ADD C; parity is not updated */
  method AddC(state: State8080, start: u16)
    requires state.Valid()
    modifies state
    ensures state.Valid()
    ensures state.Snapshot() == Cpu.ExecuteAddRegister(0x81, start, old(state.Snapshot()))
  {
    var answer := state.a + state.c;
    state.flags := state.flags.(z := BitOf(answer % 0x100 == 0), s := Cpu.SignBit(answer),
                                cy := BitOf(answer > 0xFF));
    state.a := answer % 0x100;
  }

  /** ADD M; parity is not updated */
  method AddM(state: State8080, start: u16)
    requires state.Valid()
    modifies state
    ensures state.Valid()
    ensures state.Snapshot() == Cpu.ExecuteAddRegister(0x86, start, old(state.Snapshot()))
  {
    var mem := state.memory;
    var answer := state.a + mem[Word(state.h, state.l)];
    state.flags := state.flags.(z := BitOf(answer % 0x100 == 0), s := Cpu.SignBit(answer),
                                cy := BitOf(answer > 0xFF));
    state.a := answer % 0x100;
  }

  /** ADI byte */
  method Adi(state: State8080, start: u16)
    requires state.Valid() && start + 2 <= 0x1_0000
    modifies state
    ensures state.Valid()
    ensures state.Snapshot() == Cpu.ExecuteAddImmediate(0xc6, start, old(state.Snapshot()))
  {
    ghost var before := state.Snapshot();
    var mem := state.memory;
    var answer := state.a + mem[start + 1];
    var p := ParityFlag.Parity(answer % 0x100, 8);
    var flags := state.flags.(z := BitOf(answer % 0x100 == 0), s := Cpu.SignBit(answer),
                              cy := BitOf(answer > 0xFF), p := p);
    AdiUpdates(start, before, answer, flags);
    state.flags := flags;
    state.a := answer % 0x100;
    state.pc := Wrap16(state.pc + 1);
  }

  /** RRC */
  method Rrc(state: State8080, start: u16)
    requires state.Valid()
    modifies state
    ensures state.Valid()
    ensures state.Snapshot() == Cpu.ExecuteLogical(0x0f, start, old(state.Snapshot()))
  {
    var x := state.a;
    state.a := (x % 2) * 0x80 + x / 2;
    state.flags := state.flags.(cy := BitOf(x % 2 == 1));
  }

  /** CMA */
  method Cma(state: State8080, start: u16)
    requires state.Valid()
    modifies state
    ensures state.Valid()
    ensures state.Snapshot() == Cpu.ExecuteLogical(0x2f, start, old(state.Snapshot()))
  {
    state.a := Not8(state.a);
  }

  /** ANA A */
  method AnaA(state: State8080, start: u16)
    requires state.Valid()
    modifies state
    ensures state.Valid()
    ensures state.Snapshot() == Cpu.ExecuteLogical(0xa7, start, old(state.Snapshot()))
  {
    state.a := And8(state.a, state.a);
    state.flags := state.flags.(cy := 0, ac := 0);
    SetZSP(state, state.a);
  }

  /** XRA A */
  method XraA(state: State8080, start: u16)
    requires state.Valid()
    modifies state
    ensures state.Valid()
    ensures state.Snapshot() == Cpu.ExecuteLogical(0xaf, start, old(state.Snapshot()))
  {
    state.a := Xor8(state.a, state.a);
    state.flags := state.flags.(cy := 0, ac := 0);
    SetZSP(state, state.a);
  }

  /** ANI byte */
  method Ani(state: State8080, start: u16)
    requires state.Valid() && start + 2 <= 0x1_0000
    modifies state
    ensures state.Valid()
    ensures state.Snapshot() == Cpu.ExecuteLogicalImmediate(0xe6, start, old(state.Snapshot()))
  {
    ghost var before := state.Snapshot();
    var mem := state.memory;
    state.a := And8(state.a, mem[start + 1]);
    state.flags := state.flags.(cy := 0, ac := 0);
    SetZSP(state, state.a);
    assert state.Snapshot() == Cpu.LogicalResult(before, state.a);
    state.pc := Wrap16(state.pc + 1);
  }

  /** CPI byte */
  method Cpi(state: State8080, start: u16)
    requires state.Valid() && start + 2 <= 0x1_0000
    modifies state
    ensures state.Valid()
    ensures state.Snapshot() == Cpu.ExecuteLogicalImmediate(0xfe, start, old(state.Snapshot()))
  {
    var mem := state.memory;
    var x := Wrap8(state.a - mem[start + 1]);
    SetZSP(state, x);
    state.flags := state.flags.(cy := BitOf(state.a < mem[start + 1]));
    state.pc := Wrap16(state.pc + 1);
  }

  /** PUSH B */
  method PushB(state: State8080, start: u16)
    requires state.Valid() && state.sp >= 2
    modifies state, state.memory
    ensures state.Valid()
    ensures state.Snapshot() == Cpu.ExecutePush(0xc5, start, old(state.Snapshot()))
  {
    Push(state, state.b, state.c);
  }

  /** PUSH D */
  method PushD(state: State8080, start: u16)
    requires state.Valid() && state.sp >= 2
    modifies state, state.memory
    ensures state.Valid()
    ensures state.Snapshot() == Cpu.ExecutePush(0xd5, start, old(state.Snapshot()))
  {
    Push(state, state.d, state.e);
  }

  /** PUSH H */
  method PushH(state: State8080, start: u16)
    requires state.Valid() && state.sp >= 2
    modifies state, state.memory
    ensures state.Valid()
    ensures state.Snapshot() == Cpu.ExecutePush(0xe5, start, old(state.Snapshot()))
  {
    Push(state, state.h, state.l);
  }

  /** PUSH PSW */
  method PushPsw(state: State8080, start: u16)
    requires state.Valid() && state.sp >= 2
    modifies state, state.memory
    ensures state.Valid()
    ensures state.Snapshot() == Cpu.ExecutePush(0xf5, start, old(state.Snapshot()))
  {
    var f := state.flags;
    var psw := f.z + 2 * f.s + 4 * f.p + 8 * f.cy + 16 * f.ac;
    assert psw == Cpu.PackPsw(f);
    Push(state, state.a, psw);
  }

  /** POP B */
  method PopB(state: State8080, start: u16)
    requires state.Valid() && state.sp <= 0xFFFE
    modifies state
    ensures state.Valid()
    ensures state.Snapshot() == Cpu.ExecutePop(0xc1, start, old(state.Snapshot()))
  {
    var mem := state.memory;
    state.c := mem[state.sp];
    state.b := mem[state.sp + 1];
    state.sp := Wrap16(state.sp + 2);
  }

  /** POP D */
  method PopD(state: State8080, start: u16)
    requires state.Valid() && state.sp <= 0xFFFE
    modifies state
    ensures state.Valid()
    ensures state.Snapshot() == Cpu.ExecutePop(0xd1, start, old(state.Snapshot()))
  {
    var mem := state.memory;
    state.e := mem[state.sp];
    state.d := mem[state.sp + 1];
    state.sp := Wrap16(state.sp + 2);
  }

  /** POP H */
  method PopH(state: State8080, start: u16)
    requires state.Valid() && state.sp <= 0xFFFE
    modifies state
    ensures state.Valid()
    ensures state.Snapshot() == Cpu.ExecutePop(0xe1, start, old(state.Snapshot()))
  {
    var mem := state.memory;
    state.l := mem[state.sp];
    state.h := mem[state.sp + 1];
    state.sp := Wrap16(state.sp + 2);
  }

  /** POP PSW; the carry test never succeeds */
  method PopPsw(state: State8080, start: u16)
    requires state.Valid() && state.sp <= 0xFFFE
    modifies state
    ensures state.Valid()
    ensures state.Snapshot() == Cpu.ExecutePop(0xf1, start, old(state.Snapshot()))
  {
    var mem := state.memory;
    state.a := mem[state.sp + 1];
    var psw := mem[state.sp];
    state.flags := Cpu.Flags(z := BitOf(0x01 == Cpu.MaskBit(psw, 0)),
                             s := BitOf(0x02 == Cpu.MaskBit(psw, 1)),
                             p := BitOf(0x04 == Cpu.MaskBit(psw, 2)),
                             cy := BitOf(0x05 == Cpu.MaskBit(psw, 3)),
                             ac := BitOf(0x10 == Cpu.MaskBit(psw, 4)));
    state.sp := Wrap16(state.sp + 2);
  }

  /** JNZ adr */
  method Jnz(state: State8080, start: u16)
    requires state.Valid() && start + 3 <= 0x1_0000
    modifies state
    ensures state.Valid()
    ensures state.Snapshot() == Cpu.ExecuteJump(0xc2, start, old(state.Snapshot()))
  {
    var mem := state.memory;
    if state.flags.z == 0 {
      state.pc := Word(mem[start + 2], mem[start + 1]);
    } else {
      state.pc := Wrap16(state.pc + 2);
    }
  }

  /** JMP adr */
  method Jmp(state: State8080, start: u16)
    requires state.Valid() && start + 3 <= 0x1_0000
    modifies state
    ensures state.Valid()
    ensures state.Snapshot() == Cpu.ExecuteJump(0xc3, start, old(state.Snapshot()))
  {
    var mem := state.memory;
    state.pc := Word(mem[start + 2], mem[start + 1]);
  }

  /** CALL adr; the target is read after the return address is pushed */
  method Call(state: State8080, start: u16)
    requires state.Valid() && start + 3 <= 0x1_0000 && state.sp >= 2
    modifies state, state.memory
    ensures state.Valid()
    ensures state.Snapshot() == Cpu.ExecuteCallReturn(0xcd, start, old(state.Snapshot()))
  {
    ghost var before := state.Snapshot();
    var ret := Wrap16(state.pc + 2);
    Push(state, HighByte(ret), LowByte(ret));
    ghost var pushed := state.Snapshot();
    var target := Word(state.memory[start + 2], state.memory[start + 1]);
    assert target == Word(pushed.mem[start + 2], pushed.mem[start + 1]);
    CallPushesThenJumps(start, before, pushed, target);
    JumpTo(state, target);
  }

  /** RET */
  method Ret(state: State8080, start: u16)
    requires state.Valid() && state.sp <= 0xFFFE
    modifies state
    ensures state.Valid()
    ensures state.Snapshot() == Cpu.ExecuteCallReturn(0xc9, start, old(state.Snapshot()))
  {
    var mem := state.memory;
    state.pc := Word(mem[state.sp + 1], mem[state.sp]);
    state.sp := Wrap16(state.sp + 2);
  }

  /** NOP */
  method Nop(state: State8080, start: u16)
    requires state.Valid()
    modifies state
    ensures state.Valid()
    ensures state.Snapshot() == Cpu.ExecuteControl(0x00, start, old(state.Snapshot()))
  {
  }

  /** OUT byte: the port write is not performed */
  method Out(state: State8080, start: u16)
    requires state.Valid() && start + 2 <= 0x1_0000
    modifies state
    ensures state.Valid()
    ensures state.Snapshot() == Cpu.ExecuteControl(0xd3, start, old(state.Snapshot()))
  {
    state.pc := Wrap16(state.pc + 1);
  }

  /** EI */
  method Ei(state: State8080, start: u16)
    requires state.Valid()
    modifies state
    ensures state.Valid()
    ensures state.Snapshot() == Cpu.ExecuteControl(0xfb, start, old(state.Snapshot()))
  {
    state.intEnable := 1;
  }

  /** DAD: `HL + rp` computed in 32 bits; H and L take the low 16 bits and
      the carry is bit 16. */
  method AddToHL(state: State8080, rp: u16)
    requires state.Valid()
    modifies state
    ensures state.Valid()
    ensures state.Snapshot() == Cpu.AddToHL(old(state.Snapshot()), rp)
  {
    ghost var before := state.Snapshot();
    var res := Word(state.h, state.l) + rp;
    state.h := (res / 0x100) % 0x100;
    state.l := res % 0x100;
    state.flags := state.flags.(cy := BitOf(res > 0xFFFF));
    assert state.h == Cpu.AddToHL(before, rp).h;
  }

  /** ADI on values: A, `pc` and the flags are the only fields it writes. */
  lemma AdiUpdates(start: u16, before: Cpu.State, answer: int, flags: Cpu.Flags)
    requires start + 2 <= 0x1_0000
    requires answer == before.a + before.mem[start + 1]
    requires flags == before.flags.(z := BitOf(answer % 0x100 == 0), s := Cpu.SignBit(answer),
                                    cy := BitOf(answer > 0xFF),
                                    p := ParityFlag.ParityOf(answer % 0x100, 8))
    ensures Cpu.ExecuteAddImmediate(0xc6, start, before)
      == before.(a := answer % 0x100, pc := Wrap16(before.pc + 1), flags := flags)
  {
  }

  /** CALL on values: the push of the return address, then the jump to the
      operand as it reads after the push. */
  lemma CallPushesThenJumps(start: u16, before: Cpu.State, pushed: Cpu.State, target: u16)
    requires start + 3 <= 0x1_0000 && before.sp >= 2
    requires pushed == Cpu.PushBytes(before, HighByte(Wrap16(before.pc + 2)), LowByte(Wrap16(before.pc + 2)))
    requires target == Word(pushed.mem[start + 2], pushed.mem[start + 1])
    ensures Cpu.ExecuteCallReturn(0xcd, start, before) == pushed.(pc := target)
  {
  }

  /** The jump that ends CALL: only `pc` changes. */
  method JumpTo(state: State8080, target: u16)
    requires state.Valid()
    modifies state
    ensures state.Valid()
    ensures state.Snapshot() == old(state.Snapshot()).(pc := target)
  {
    state.pc := target;
  }

  /** The stack write of PUSH and CALL: `hi` at `sp - 1`, `lo` at `sp - 2`,
      then `sp` moves down by two. */
  method Push(state: State8080, hi: byte, lo: byte)
    requires state.Valid() && state.sp >= 2
    modifies state, state.memory
    ensures state.Valid()
    ensures state.Snapshot() == Cpu.PushBytes(old(state.Snapshot()), hi, lo)
  {
    state.memory[state.sp - 1] := hi;
    state.memory[state.sp - 2] := lo;
    state.sp := state.sp - 2;
  }
}

=== FILE: parity.dfy ===
/** The parity helper `Parity(int x, int size)` used to compute the 8080
    parity flag: 1 when the low `size` bits of `x` hold an even number of
    ones, 0 otherwise. */
module ParityFlag {
  import opened Bits

  /** Number of ones among the low `n` bits of `x` (two's complement for a
      negative `x`, as C's `&` and `>>` see it). */
  function Ones(x: int, n: nat): nat
    decreases n
  {
    if n == 0 then 0 else x % 2 + Ones(x / 2, n - 1)
  }

  /** Reference definition of the parity flag. */
  function ParityOf(x: int, size: nat): bit
  {
    if Ones(x, size) % 2 == 0 then 1 else 0
  }

  /** Only the low `n` bits of `x` matter: the mask `x & ((1 << size) - 1)`
      at the head of `Parity` does not change the count. */
  lemma {:induction false} OnesLowBits(x: int, n: nat)
    ensures Ones(x % Pow2(n), n) == Ones(x, n)
    decreases n
  {
    if n > 0 {
      MaskShift(x, Pow2(n - 1));
      OnesLowBits(x / 2, n - 1);
    }
  }

  /** `Parity(x, size)` as the loop computes it. `size` stays below 31 so that
      `1 << size` does not overflow a 32-bit `int`. */
  method Parity(x: int, size: int) returns (r: int)
    requires 0 <= size < 31
    ensures r == 0 || r == 1
    ensures r == ParityOf(x, size)
  {
    var v := x % Pow2(size);  // x & ((1 << size) - 1)
    OnesLowBits(x, size);
    var p := 0;
    var i := 0;
    while i < size
      invariant 0 <= i <= size
      invariant p + Ones(v, size - i) == Ones(x, size)
    {
      if v % 2 == 1 {  // x & 0x1
        p := p + 1;
      }
      v := v / 2;  // x >> 1
      i := i + 1;
    }
    r := if p % 2 == 0 then 1 else 0;  // 0 == (p & 0x1)
  }

  /** Two values that agree on their low `size` bits have the same parity. */
  lemma ParityLowBits(x: int, y: int, size: nat)
    requires x % Pow2(size) == y % Pow2(size)
    ensures ParityOf(x, size) == ParityOf(y, size)
  {
    OnesLowBits(x, size);
    OnesLowBits(y, size);
  }

  lemma {:induction false} OnesZero(n: nat)
    ensures Ones(0, n) == 0
  {
    if n > 0 {
      OnesZero(n - 1);
    }
  }

  /** Zero has no set bits, so its parity is even. */
  lemma ParityOfZero(size: nat)
    ensures ParityOf(0, size) == 1
  {
    OnesZero(size);
  }

  /** A single set bit inside the window gives odd parity. */
  lemma {:induction false} OnesPow2(k: nat, n: nat)
    requires k < n
    ensures Ones(Pow2(k), n) == 1
  {
    if k == 0 {
      OnesZero(n - 1);
    } else {
      OnesPow2(k - 1, n - 1);
    }
  }

  lemma ParityOfPow2(k: nat, size: nat)
    requires k < size
    ensures ParityOf(Pow2(k), size) == 0
  {
    OnesPow2(k, size);
  }
}
